=== FILE: README.md ===
# ReactorBot controller core, modelled in Dafny

This project models the decision-making core of ReactorBot. ReactorBot is a
competition robot: it empties spent fuel rods from two reactors, stores them in
storage tubes, fetches new rods from supply tubes and refuels the reactors. It
talks to the field's reactor control module over a Bluetooth serial link.

The model has one Dafny module per source component:

- `Field` (`field.dfy`): the `FieldPosition` grid cell and the fixed field
  geometry. This means the two reactor cells, the four storage tubes and the
  four supply tubes.
- `LineFollower` (`line_follower.dfy`): the line-crossing detector. It is a
  class with the one bit of memory `blackBefore`. `HitTrace` is a
  specification of a whole sequence of readings.
- `ReactorComms` (`reactor_comms.dfy`): the field-link protocol.
  - The `Comms` class holds the latched fields (`robotEnabled`, `storData`,
    `fuelData`), the running `checkSum`, the pending receive bytes `rx` and
    the transmitted bytes `tx`.
  - `Update` drains the receive buffer frame by frame. It is proved against
    the pure specification `Drain`.
  - `SendHeartBeat` and `SendRadAlert` append exactly the frames
    `HeartBeatFrame()` and `RadAlertFrame(high)`.
  - The checksum is modelled byte by byte with 8-bit wrap-around written out.
- `Bluetooth` (`bluetooth.dfy`): the once-per-cycle link service. It drains
  the link, enables or disables the motors, resets the PIDs, and sends a
  heartbeat and, while a rod is carried, an alert once the timer has
  elapsed. The calls it makes are
  returned as a trace of `Action`s.
- `StateMachine` (`state_machine.dfy`): the 21-state task sequencer.
  - The globals form the class `Robot`. `RobotLoop` is one pass of
    `robotLoop()`.
  - It is proved equal to the pure step function `Next`, which covers the
    switch and the LED update. `Next` takes a record of this pass's sensor
    and controller results (`Inputs`) and the link's bitmaps.
  - Its effects on the other modules are a list of `Command`s.
  - The pick states' `for` loops with early `break` are the methods
    `PickDescending` and `PickAscending`. They are proved against the
    recursive scans `ScanDown` and `ScanUp`.
  - The invariant `Valid` holds initially, is kept by every pass and is kept
    along any run. It says, among other things, that the target is a named
    cell and that the robot heads for the cell its task names.

Enumerations hold values that the C++ zero-initialises before `BEGIN` runs.
`reactor` and `radiation` start at 0, which is none of their enumerators. The
model keeps this as `ReactorUnset` and `RadUnset`. `Bluetooth.Loop` with level
0 behaves like level 1 (`UnsetLevelIsNone`). No LED command is issued while
the level is unset.

### Behaviour of the link code that the model keeps

- **The two checksum conventions disagree.** `update()` consumes the start
  byte `0x5F` before it resets `checkSum` (ReactorComms/ReactorComms.cpp:35-38).
  `sendHeartBeat()` and `sendRadAlert()` reset `checkSum` before they write the
  start byte (ReactorComms/ReactorComms.cpp:101-102, :113-114). A frame sent by
  this code would therefore fail this code's own receive check.
  `SentFrameFailsReceiveCheck` proves this, and no send/receive round trip is
  claimed.
- **The destination is not checked.** The comment above `update()`
  (ReactorComms/ReactorComms.cpp:29-32) says that packets meant for another
  robot are ignored. The destination test at :48 is commented out, so they
  are not. `DestinationIgnored` proves that, for every frame with LEN at
  least 5 except a five-byte storage or supply frame, the destination byte
  never changes the frame's effect.
- **A five-byte storage or supply frame latches its checksum byte.** `msg[5]`
  is read as the payload (ReactorComms/ReactorComms.cpp:51-56). In a frame
  whose LEN is 5, that position holds the checksum byte, so the latched
  bitmap depends on the destination byte after all
  (`ShortStorageFrameLatchesChecksum`).
- **The bitmaps start at `0x00`** (ReactorComms/ReactorComms.h:45-46). A
  storage bit means "occupied" and a supply bit means "full". So before the
  first frame every storage tube reads available and no supply tube does
  (`FreshAvailability`).
- **LEN counts the bytes after the start byte.** The heartbeat writes `0x05`
  and then four more bytes (ReactorComms/ReactorComms.cpp:103-107). The
  receiver allocates LEN + 1 bytes for `msg[]`.

## Model

| member | source | states |
|---|---|---|
| `Field.Same` | ReactorBot/FieldPosition.h:21-23 | `operator==` holds exactly when the two positions are equal |
| `Field.StorageCell` | ReactorBot/FieldPosition.h:37-42 | storage tube `id` (1..4) is at (6 - id, +1) |
| `Field.SupplyCell` | ReactorBot/FieldPosition.h:45-50 | supply tube `id` (1..4) is at (id + 1, -1) |
| `Field.CellsDistinct` | ReactorBot/FieldPosition.h:33-50 | the ten named cells are pairwise distinct; reactors are on row 0, storage on row +1, supply on row -1 |
| `LineFollower.IntersectionDetector.constructor` | Code/ReactorBot/LineFollower.h:54 | the memory starts false |
| `LineFollower.IntersectionDetector.HitIntersection` | Code/ReactorBot/LineFollower.h:57-62 | reports a hit iff the reading is black and the remembered one is not; the memory becomes the reading, as `MemoryAfter` says; agrees with `HitTrace` |
| `LineFollower.HitTraceSpec` | Code/ReactorBot/LineFollower.h:54-62 | over a sequence of readings, the result for each reading is true exactly at a false-to-true transition (the first reading compared with the memory) |
| `LineFollower.MemoryIsLastReading` | Code/ReactorBot/LineFollower.h:60 | after at least one call, the memory holds the last reading, whatever it held before |
| `LineFollower.MemoryAfterAppend` | Code/ReactorBot/LineFollower.h:60 | the memory after two batches of readings is the memory after feeding the second batch from the memory the first left |
| `LineFollower.NoHitOnSteadyBlack` | Code/ReactorBot/LineFollower.h:58-59 | the second of two consecutive black readings is never a hit |
| `LineFollower.FirstBlackIsHit` | Code/ReactorBot/LineFollower.h:54-59 | from the initial memory, a first black reading is a hit |
| `LineFollower.HitsBounded` | Code/ReactorBot/LineFollower.h:54-62 | the number of hits is at most half the readings (plus one from a false memory) |
| `LineFollower.HitTraceAppend` | Code/ReactorBot/LineFollower.h:54-62 | feeding readings in two batches gives the same hits as feeding them at once |
| `ReactorComms.AccumulateIsDifference` | ReactorComms/ReactorComms.cpp:132-137 | the running `checkSum -= b` equals the start value minus the byte sum, modulo 256 |
| `ReactorComms.ChecksumIsComplement` | ReactorComms/ReactorComms.cpp:38-46 | starting from 0xFF the accumulator ends at 0x00 iff the bytes sum to 0xFF modulo 256 |
| `ReactorComms.FrameEffect` | ReactorComms/ReactorComms.cpp:46-65 | a frame changes the latched state only if its bytes after START sum to 0xFF and its source is 0x00; an accepted frame of type 1, 2, 4 or 5 sets `storData`, `fuelData`, disabled or enabled respectively; any other type, or a rejected frame, changes nothing |
| `ReactorComms.DestinationIgnored` | ReactorComms/ReactorComms.cpp:46-49 | for every frame with LEN at least 5, except a five-byte storage or supply frame: changing the destination byte, with the checksum byte adjusted, never changes the frame's effect; packets addressed to other robots are acted on |
| `ReactorComms.ShortStorageFrameLatchesChecksum` | ReactorComms/ReactorComms.cpp:51-53 | a five-byte storage frame latches its checksum byte as the bitmap, so changing its destination byte changes what is latched |
| `ReactorComms.SingleByteErrorDetected` | ReactorComms/ReactorComms.cpp:38-46 | changing any single byte of a frame that passes the check makes it fail |
| `ReactorComms.NoiseIgnored` | ReactorComms/ReactorComms.cpp:34-35 | bytes other than 0x5F scanned outside a frame are consumed without effect |
| `ReactorComms.EnableIgnoresBitmaps` | ReactorComms/ReactorComms.cpp:58-63 | the enable flag after draining a buffer depends only on its old value and the frames received, never on the tube bitmaps |
| `ReactorComms.DrainAppend` | ReactorComms/ReactorComms.cpp:34-67 | draining two buffers in turn is draining their concatenation |
| `ReactorComms.StorageAvailable` | ReactorComms/ReactorComms.cpp:77-85 | true iff `id` is 1..4 and bit `id - 1` of `storData` is clear |
| `ReactorComms.SupplyAvailable` | ReactorComms/ReactorComms.cpp:89-97 | true iff `id` is 1..4 and bit `id - 1` of `fuelData` is set |
| `ReactorComms.FreshAvailability` | ReactorComms/ReactorComms.h:45-46 | with the initial bitmaps every storage tube is available and no supply tube is |
| `ReactorComms.Seal` | ReactorComms/ReactorComms.cpp:141-144 | a sealed frame is its bytes followed by one checksum byte, and all its bytes sum to 0xFF modulo 256 |
| `ReactorComms.OutboundBytes` | ReactorComms/ReactorComms.cpp:100-124 | the heartbeat is 5F 05 07 07 00 8D; the alerts are 5F 06 03 07 00 FF 91 (new rod) and 5F 06 03 07 00 2C 64 (spent rod) |
| `ReactorComms.SentFrameFailsReceiveCheck` | ReactorComms/ReactorComms.cpp:35-46 | a frame from the send path fails the receive check, because the receiver leaves START out of the checksum |
| `ReactorComms.StorageFrameScenario` | ReactorComms/ReactorComms.cpp:51-53 | the frame 5F 06 01 00 00 05 F3 latches storage bitmap 0x05: tubes 1 and 3 occupied, tubes 2 and 4 free |
| `ReactorComms.Comms.constructor` | ReactorComms/ReactorComms.h:44-48 | starts disabled, with both bitmaps 0x00 and the accumulator at 0xFF |
| `ReactorComms.Comms.GetRobotEnabled` | ReactorComms/ReactorComms.cpp:71-73 | reports the latched enable flag of `State()`, the one that `Drain` and `FrameEffect` say only accepted STOP (false) and RESUME (true) frames set |
| `ReactorComms.Comms.Read` | ReactorComms/ReactorComms.cpp:132-137 | takes the next byte and subtracts it from the checksum with wrap-around |
| `ReactorComms.Comms.Write` | ReactorComms/ReactorComms.cpp:141-144 | appends the byte to the output and subtracts it from the checksum |
| `ReactorComms.Comms.ReadFrame` | ReactorComms/ReactorComms.cpp:38-43 | reads LEN and the rest of the frame into `msg`, which has LEN + 1 bytes; the checksum is accumulated over every byte after START |
| `ReactorComms.Comms.Update` | ReactorComms/ReactorComms.cpp:33-68 | empties the receive buffer; the latched state becomes `Drain` of the old state over the old buffer; nothing is sent |
| `ReactorComms.Comms.SendHeartBeat` | ReactorComms/ReactorComms.cpp:100-108 | appends exactly the heartbeat frame and leaves the accumulator at 0x00 |
| `ReactorComms.Comms.SendRadAlert` | ReactorComms/ReactorComms.cpp:112-124 | appends exactly the alert frame for `high` and leaves the accumulator at 0x00 |
| `Bluetooth.Loop` | ReactorBot/Bluetooth.h:34-65 | drains the link first; then the actions are the enable or disable fan-out for the new enabled flag, plus a timer restart when the timer has elapsed; the bytes sent are `LoopSent` |
| `Bluetooth.MotorGating` | ReactorBot/Bluetooth.h:40-51 | each motor is enabled iff the link has the robot enabled and disabled iff not; every PID is reset iff not enabled |
| `Bluetooth.HeartBeatFirst` | ReactorBot/Bluetooth.h:54-56 | nothing is sent and the timer is not restarted until it has elapsed; once it has, the timer is restarted whether or not the robot is enabled, and the heartbeat is sent first |
| `Bluetooth.AlertByLevel` | ReactorBot/Bluetooth.h:57-63 | after the heartbeat comes the new-rod alert for level 3, the spent-rod alert for level 2, and nothing otherwise |
| `Bluetooth.SentFramesSealed` | ReactorBot/Bluetooth.h:56-61 | every frame the loop sends sums to 0xFF modulo 256 |
| `Bluetooth.UnsetLevelIsNone` | ReactorBot/Bluetooth.h:57-63 | the level 0 of the zero-initialised global sends the same as level 1 |
| `Bluetooth.StopFrameDisables` | ReactorBot/Bluetooth.h:37-51 | a valid STOP frame in the buffer disables the motors on the very pass that reads it |
| `StateMachine.AtReactor` | Code/ReactorBot/StateMachine.h:120-123 | holds iff the position is reactor A's or reactor B's cell |
| `StateMachine.ReactorCell` | Code/ReactorBot/StateMachine.h:60-63 | a reactor's cell is on row 0 in the column its enumerator value names, and `atReactor` holds there |
| `StateMachine.ScanDown` | Code/ReactorBot/StateMachine.h:411-416 | the scan from `top` down to 1 returns the highest free tube not above `top`, or 0 when none is free |
| `StateMachine.ScanUp` | Code/ReactorBot/StateMachine.h:419-424 | the scan from `bottom` up to 4 returns the lowest free tube not below `bottom`, or 0 when none is free |
| `StateMachine.Robot.constructor` | Code/ReactorBot/StateMachine.h:39-50 | the globals start at (2, 0), aiming at reactor A, heading up, in BEGIN, with reactor and radiation unset; the link starts fresh |
| `StateMachine.Robot.PickDescending` | Code/ReactorBot/StateMachine.h:411-416 | the loop aims at the tube `ScanDown` finds and enters DECIDE_X, or changes nothing |
| `StateMachine.Robot.PickAscending` | Code/ReactorBot/StateMachine.h:419-424 | the loop aims at the tube `ScanUp` finds and enters DECIDE_X, or changes nothing |
| `StateMachine.Robot.RobotLoop` | Code/ReactorBot/StateMachine.h:173-458 | runs the Bluetooth pass with the radiation level from before the switch; the globals and the calls made are those of `Next`; the invariant `Valid` is kept |
| `StateMachine.Robot.Dispatch` | Code/ReactorBot/StateMachine.h:179-450 | the switch changes the globals as `Switch` says |
| `StateMachine.Robot.DoLegX` | Code/ReactorBot/StateMachine.h:182-231 | BEGIN, DECIDE_X, TURNTO_X and GOTO_X behave as `LegX` says |
| `StateMachine.Robot.DoArrive` | Code/ReactorBot/StateMachine.h:233-255 | PREP_DEPOSIT_1/2, APPROACH_REACTOR and INCH_X behave as `Arrive` says |
| `StateMachine.Robot.DoLegY` | Code/ReactorBot/StateMachine.h:257-291 | DECIDE_Y, TURNTO_Y and GOTO_Y behave as `LegY` says |
| `StateMachine.Robot.DoHandle` | Code/ReactorBot/StateMachine.h:293-352 | DECIDE_ARM to ARM_REVERSE behave as `Handle` says |
| `StateMachine.Robot.DoPlan` | Code/ReactorBot/StateMachine.h:354-449 | BACK_TO_LINE, INCH_Y, SET_TASK and the pick states behave as `Plan` says |
| `StateMachine.BeginStartsAtReactorA` | Code/ReactorBot/StateMachine.h:182-188 | BEGIN selects reactor A, the empty-reactor task and no radiation, aims at reactor A, and moves to DECIDE_X |
| `StateMachine.DecideTurnsTowardTarget` | Code/ReactorBot/StateMachine.h:191-201 | DECIDE_X moves to DECIDE_Y iff the robot is already in the target column, and otherwise heads right iff the target is to the right; DECIDE_Y does the same with DECIDE_ARM and up/down |
| `StateMachine.OdometryOnlyWhileDriving` | Code/ReactorBot/StateMachine.h:210-362 | the position changes only in GOTO_X, GOTO_Y and BACK_TO_LINE. In GOTO_X, x changes iff there is a hit, by one in the direction the gyro reports, and y is untouched. GOTO_Y moves to DECIDE_ARM iff the tube switch is pressed; the position changes only then, to row +1 for storage, row -1 for supply, and not at all for reactor tasks. BACK_TO_LINE moves y to 0 only on a crossing; without one, nothing but the line memory changes |
| `StateMachine.LineMemoryOnlyWhileCounting` | Code/ReactorBot/StateMachine.h:212 | the detector's memory is refreshed only in GOTO_X and BACK_TO_LINE |
| `StateMachine.WaitStatesHold` | Code/ReactorBot/StateMachine.h:204-362 | each waiting state leaves the machine unchanged until its condition holds, and then moves to its one successor; GOTO_Y waits for the tube switch and then goes to DECIDE_ARM; BACK_TO_LINE off the line changes only the line memory |
| `StateMachine.TaskCycle` | Code/ReactorBot/StateMachine.h:370-405 | the task changes iff the state is SET_TASK, one step round the cycle; the reactor toggles only at the end of a refuel; the target becomes the current or the new reactor's cell; after emptying a reactor the next state is PICK_STORAGE, after filling storage it is PICK_SUPPLY, with target and reactor unchanged |
| `StateMachine.TaskCyclePeriod` | Code/ReactorBot/StateMachine.h:373-404 | four task changes return to the starting task, and no step repeats a task |
| `StateMachine.HandlingByTask` | Code/ReactorBot/StateMachine.h:294-346 | the arm angle is pickup, drop-off or tube by task; the gripper closes iff a rod is to be taken; radiation becomes high while carrying a new rod, low while carrying a spent one, none otherwise |
| `StateMachine.LedShowsRadiation` | Code/ReactorBot/StateMachine.h:453-457 | every pass after BEGIN ends by showing the radiation level on the LED |
| `StateMachine.BackToLineAtReactor` | Code/ReactorBot/StateMachine.h:355-362 | on the crossing, y becomes 0; the robot plans the next task iff it is in column 1 or 6, and otherwise inches forward first |
| `StateMachine.GotoXExit` | Code/ReactorBot/StateMachine.h:210-231 | GOTO_X is left iff the new column equals the target's; the next state is APPROACH_REACTOR when emptying, PREP_DEPOSIT_1 when refuelling and INCH_X otherwise; the motors brake iff the next state is PREP_DEPOSIT_1, and the encoders are zeroed iff it is INCH_X |
| `StateMachine.PlanMotorCommands` | Code/ReactorBot/StateMachine.h:355-372 | SET_TASK brakes the motors first; BACK_TO_LINE zeroes the encoders iff it moves to INCH_Y |
| `StateMachine.PickIsNearest` | Code/ReactorBot/StateMachine.h:407-449 | when some tube is free, the pick state aims at a free tube of its kind no farther from the current reactor than any other free tube, and enters DECIDE_X |
| `StateMachine.PickWaitsWhenNoneFree` | Code/ReactorBot/StateMachine.h:408-449 | with no free tube, the pick state changes nothing |
| `StateMachine.InitialValid` | Code/ReactorBot/StateMachine.h:39-40 | the invariant holds at start-up |
| `StateMachine.ValidPreserved` | Code/ReactorBot/StateMachine.h:173-458 | one pass keeps the invariant: the target is a named cell; the robot is on one of the three rows; reactor and radiation are set once BEGIN has run; each pick state belongs to its task; elsewhere the robot heads for the cell its task names (a reactor cell for the reactor tasks, a storage or supply tube otherwise) |
| `StateMachine.RunValid` | Code/ReactorBot/StateMachine.h:173-458 | any sequence of passes from a valid state keeps the invariant; each pass has its own sensor results and its own storage and supply bitmaps from the link |
| `StateMachine.GotoYLandsOnTargetRow` | Code/ReactorBot/StateMachine.h:277-291 | on the y leg of a storage or supply task, the tube switch puts the odometry on the target's row |
| `StateMachine.CrossingsReachTarget` | Code/ReactorBot/StateMachine.h:210-231 | in GOTO_X, whatever the line memory holds, one off-line reading and then n crossings towards a target n columns away bring x exactly onto the target and end the x leg in the state the task selects |
| `StateMachine.FirstLegScenario` | Code/ReactorBot/StateMachine.h:182-250 | from start-up: BEGIN, turn left, one crossing, reactor switch; the robot is at reactor A with the arm heading for the pickup angle |
| `StateMachine.StoragePickScenario` | Code/ReactorBot/StateMachine.h:408-416 | with storage bitmap 0x0D and reactor A, the robot aims at storage tube 2, at (4, 1) |

## Left out

- PID controllers, `GyroDrive`, the arm PID, the motor drivers, the encoders, the gripper servo and the LED driver are hardware or floating-point code whose implementations are not part of this model. Their per-pass results (`turned`, `armSettled`, `headingBelowPi`, `inchReached`, `gripperReady`, the switch readings and the line-sensor reading) are fields of `Inputs`. The calls into them are `Command`s: `LineFollow(volts)`, `GyroTurn`, `ArmTo`, `Brake`, `ZeroEncoders`, `GripperClose`/`GripperOpen`, `BackUp` and `Led`.
- Floating-point headings become the enumeration {U, R, D, L}, because only those four constants are ever assigned.
- The one-second `Timer` is replaced by the boolean `elapsed`.
- Serial set-up (`init()`, the baud rate, `Bluetooth::setup()`) is not modelled.
- `Comms.Update` requires a receive buffer in which every START byte met while scanning outside a frame is followed by a complete frame (`Framed`). This stands in for the busy-wait inside `read()`, which waits for the rest of a frame.
- `Comms.Update` also requires every frame to meet `InBounds`. The source indexes outside `msg[]` when LEN is 0 or 0xFF, when a frame whose checksum passes is too short to hold the source byte, or when a storage or supply frame has no payload byte. Those frames are excluded rather than given a meaning.
- `StateMachine.Robot.constructor` models only what `robotSetup()` leaves in the globals. Its blocking loops, which open the gripper and swing the arm back, are left out.
- `currentPos.x` is an unbounded integer. The source's `int` could in principle overflow after more than 32767 crossings in one direction.
- The hits a sequence of readings yields are characterised element-wise by `LineFollower.HitTraceSpec` (each hit is a transition) and bounded in number by `LineFollower.HitsBounded`. No exact closed form for the number of hits is stated.

=== FILE: bluetooth.dfy ===
/** The Bluetooth service loop: drains the field link, gates the drive motors on
    the latched enable flag, and once a second sends a heartbeat followed by a
    radiation alert when the robot carries a rod. */
module Bluetooth {
  import opened ReactorComms

  /** The three motors the loop enables or disables together. */
  datatype Motor = LeftDrive | RightDrive | ArmMotor

  /** The three controllers whose PID state is cleared while disabled. */
  datatype Controller = GyroDrivePids | LineFollowerPids | ArmPids

  /** An effect of one loop pass on the rest of the robot, in program order.
      Bytes sent on the link are not actions: they are appended to the link's
      transmit record. */
  datatype Action = Enable(m: Motor) | Disable(m: Motor) | ResetPids(c: Controller) | TimerTic

  /** `radLevel` values that raise an alert: 3 for a new rod, 2 for a spent one. */
  const RAD_HIGH: int := 3
  const RAD_LOW: int := 2

  /** The effects of one pass after the link has been drained, given the latched
      enable flag and whether a second has elapsed since the last heartbeat. */
  function LoopActions(enabled: bool, elapsed: bool): seq<Action>
  {
    (if enabled then [Enable(LeftDrive), Enable(RightDrive), Enable(ArmMotor)]
     else [Disable(LeftDrive), Disable(RightDrive), Disable(ArmMotor),
           ResetPids(GyroDrivePids), ResetPids(LineFollowerPids), ResetPids(ArmPids)])
    + (if elapsed then [TimerTic] else [])
  }

  /** The alert that follows a heartbeat, if any. */
  function AlertFrame(radLevel: int): seq<byte>
  {
    if radLevel == RAD_HIGH then RadAlertFrame(RADIATION_HI)
    else if radLevel == RAD_LOW then RadAlertFrame(RADIATION_LO)
    else []
  }

  /** The bytes one pass writes to the link. */
  function LoopSent(radLevel: int, elapsed: bool): seq<byte>
  {
    if elapsed then HeartBeatFrame() + AlertFrame(radLevel) else []
  }

  /** `loop(radLevel)`: one pass of the service. `elapsed` stands for the
      one-second timer having run out. */
  method Loop(com: Comms, radLevel: int, elapsed: bool) returns (actions: seq<Action>)
    requires Framed(com.rx)
    modifies com
    ensures com.rx == []
    ensures com.State() == Drain(old(com.State()), old(com.rx))
    ensures actions == LoopActions(com.GetRobotEnabled(), elapsed)
    ensures com.tx == old(com.tx) + LoopSent(radLevel, elapsed)
  {
    com.Update();
    if com.GetRobotEnabled() {
      actions := [Enable(LeftDrive), Enable(RightDrive), Enable(ArmMotor)];
    } else {
      actions := [Disable(LeftDrive), Disable(RightDrive), Disable(ArmMotor)];
      actions := actions + [ResetPids(GyroDrivePids), ResetPids(LineFollowerPids), ResetPids(ArmPids)];
    }
    if elapsed {
      actions := actions + [TimerTic];
      com.SendHeartBeat();
      if radLevel == RAD_HIGH {
        com.SendRadAlert(RADIATION_HI);
      } else if radLevel == RAD_LOW {
        com.SendRadAlert(RADIATION_LO);
      }
    }
  }

  /** Each motor is enabled exactly when the link has the robot enabled and
      disabled exactly when it does not, and all PIDs are reset exactly when it
      does not; nothing is both enabled and disabled in one pass. */
  lemma MotorGating(enabled: bool, elapsed: bool, m: Motor, c: Controller)
    ensures Enable(m) in LoopActions(enabled, elapsed) <==> enabled
    ensures Disable(m) in LoopActions(enabled, elapsed) <==> !enabled
    ensures ResetPids(c) in LoopActions(enabled, elapsed) <==> !enabled
  {
    var acts := LoopActions(enabled, elapsed);
    if enabled {
      assert acts[if m == LeftDrive then 0 else if m == RightDrive then 1 else 2] == Enable(m);
    } else {
      assert acts[if m == LeftDrive then 0 else if m == RightDrive then 1 else 2] == Disable(m);
      assert acts[if c == GyroDrivePids then 3 else if c == LineFollowerPids then 4 else 5] == ResetPids(c);
    }
  }

  /** Nothing is sent and the timer is left running until a second has
      elapsed; then the timer restarts and a heartbeat is always sent, first. */
  lemma HeartBeatFirst(radLevel: int, elapsed: bool)
    ensures !elapsed ==> LoopSent(radLevel, elapsed) == [] && TimerTic !in LoopActions(true, elapsed) && TimerTic !in LoopActions(false, elapsed)
    ensures elapsed ==> LoopSent(radLevel, elapsed)[..|HeartBeatFrame()|] == HeartBeatFrame()
    ensures elapsed ==> TimerTic in LoopActions(true, elapsed) && TimerTic in LoopActions(false, elapsed)
  {
  }

  /** After the heartbeat comes a high-radiation alert for level 3, a
      low-radiation alert for level 2, and nothing for any other level. */
  lemma AlertByLevel(radLevel: int)
    ensures var rest := LoopSent(radLevel, true)[|HeartBeatFrame()|..];
      && (radLevel == RAD_HIGH ==> rest == [0x5F, 0x06, 0x03, 0x07, 0x00, 0xFF, 0x91])
      && (radLevel == RAD_LOW ==> rest == [0x5F, 0x06, 0x03, 0x07, 0x00, 0x2C, 0x64])
      && (radLevel != RAD_HIGH && radLevel != RAD_LOW ==> rest == [])
  {
    OutboundBytes();
  }

  /** Every frame the loop sends is sealed: its bytes, START included, sum to
      0xFF modulo 256. */
  lemma SentFramesSealed(radLevel: int)
    ensures Sum(HeartBeatFrame()) % 256 == 0xFF
    ensures radLevel == RAD_HIGH || radLevel == RAD_LOW ==>
      Sum(LoopSent(radLevel, true)[|HeartBeatFrame()|..]) % 256 == 0xFF
  {
  }

  /** A radiation level of 0, which is what the zero-initialised global holds
      before the state machine first sets it, behaves like NONE (1). */
  lemma UnsetLevelIsNone(elapsed: bool)
    ensures LoopSent(0, elapsed) == LoopSent(1, elapsed)
  {
  }

  /** A valid STOP frame from the field arriving in the receive buffer
      disables the motors and resets the PIDs on the very pass that reads it. */
  lemma StopFrameDisables(l: Latches, elapsed: bool)
    ensures var frame := [START, 0x05, TYPE_STOP, FIELD_ID, ROBOT_ID, 0xEF];
      && Framed(frame)
      && !Drain(l, frame).robotEnabled
      && Disable(ArmMotor) in LoopActions(Drain(l, frame).robotEnabled, elapsed)
  {
    var frame: seq<byte> := [START, 0x05, TYPE_STOP, FIELD_ID, ROBOT_ID, 0xEF];
    assert frame == [0x5F, 0x05, 0x04, 0x00, 0x07, 0xEF];
    assert frame[1..6] == [0x05, 0x04, 0x00, 0x07, 0xEF];
    assert Accumulate(0xFF, [0x05, 0x04, 0x00, 0x07, 0xEF]) == 0;
    assert frame[6..] == [];
    MotorGating(false, elapsed, ArmMotor, ArmPids);
  }
}

=== FILE: field.dfy ===
/** Grid positions on the competition field and the fixed field geometry:
    the two reactor cells, the four storage tubes and the four supply tubes. */
module Field {

  /** A line-intersection on the field grid. The datatype constructor is the
      `FieldPosition(x, y)` constructor of the robot: it stores exactly `x` and `y`. */
  datatype FieldPosition = FieldPosition(x: int, y: int)

  /** `operator==`: component-wise comparison, which is exactly value equality. */
  function Same(a: FieldPosition, b: FieldPosition): (r: bool)
    ensures r <==> a == b
  {
    (a.x == b.x) && (a.y == b.y)
  }

  const REACTOR_A: FieldPosition := FieldPosition(1, 0)
  const REACTOR_B: FieldPosition := FieldPosition(6, 0)

  /** Storage tubes 1..4 live at indices 0..3. */
  const STORAGE: seq<FieldPosition> := [
    FieldPosition(5, 1),
    FieldPosition(4, 1),
    FieldPosition(3, 1),
    FieldPosition(2, 1)
  ]

  /** Supply tubes 1..4 live at indices 0..3. */
  const SUPPLY: seq<FieldPosition> := [
    FieldPosition(2, -1),
    FieldPosition(3, -1),
    FieldPosition(4, -1),
    FieldPosition(5, -1)
  ]

  /** The position of storage tube `id` (1..4). */
  function StorageCell(id: int): (p: FieldPosition)
    requires 1 <= id <= 4
    ensures p == FieldPosition(6 - id, 1)
  {
    STORAGE[id - 1]
  }

  /** The position of supply tube `id` (1..4). */
  function SupplyCell(id: int): (p: FieldPosition)
    requires 1 <= id <= 4
    ensures p == FieldPosition(id + 1, -1)
  {
    SUPPLY[id - 1]
  }

  /** The ten cells the robot is ever sent to, reactors first. */
  const NAMED_CELLS: seq<FieldPosition> := [REACTOR_A, REACTOR_B] + STORAGE + SUPPLY

  predicate IsNamedCell(p: FieldPosition)
  {
    p in NAMED_CELLS
  }

  /** Reactors lie on y = 0, storage on y = +1 and supply on y = -1, and no two
      of the ten named cells coincide. */
  lemma CellsDistinct()
    ensures |NAMED_CELLS| == 10
    ensures forall p :: p in NAMED_CELLS ==>
      (p.y == 0 <==> p in [REACTOR_A, REACTOR_B]) &&
      (p.y == 1 <==> p in STORAGE) &&
      (p.y == -1 <==> p in SUPPLY)
    ensures forall i, j :: 0 <= i < j < |NAMED_CELLS| ==> NAMED_CELLS[i] != NAMED_CELLS[j]
  {
  }
}

=== FILE: line_follower.dfy ===
/** The line follower's intersection detector: one bit of memory (`blackBefore`)
    and a rising-edge test on the "on black line" reading. The PID line-following
    drive itself is not part of this module. */
module LineFollower {

  class IntersectionDetector {
    /** The reading seen by the previous call of HitIntersection. */
    var blackBefore: bool

    constructor ()
      ensures !blackBefore
    {
      blackBefore := false;
    }

    /** `hitIntersection()`: reports a rising edge of the reading and remembers it. */
    method HitIntersection(blackNow: bool) returns (intersect: bool)
      modifies this
      ensures intersect <==> blackNow && !old(blackBefore)
      ensures intersect == HitTrace(old(blackBefore), [blackNow])[0]
      ensures blackBefore == blackNow == MemoryAfter(old(blackBefore), [blackNow])
    {
      intersect := blackNow && !blackBefore;
      blackBefore := blackNow;
    }
  }

  /** The reading that precedes position `i` of `readings`, given the memory
      `before` held when the first reading was taken. */
  function Previous(before: bool, readings: seq<bool>, i: int): bool
    requires 0 <= i < |readings|
  {
    if i == 0 then before else readings[i - 1]
  }

  /** The results of calling HitIntersection once per reading, starting from
      memory `before`. */
  function HitTrace(before: bool, readings: seq<bool>): (hits: seq<bool>)
    ensures |hits| == |readings|
    decreases |readings|
  {
    if readings == [] then []
    else [readings[0] && !before] + HitTrace(readings[0], readings[1..])
  }

  /** The trace has one result per reading, true exactly at a false-to-true
      transition of the reading (the first reading is compared with `before`). */
  lemma {:induction false} HitTraceSpec(before: bool, readings: seq<bool>)
    ensures forall i :: 0 <= i < |readings| ==>
      (HitTrace(before, readings)[i] <==> readings[i] && !Previous(before, readings, i))
    decreases |readings|
  {
    if readings != [] {
      var hits, rest := HitTrace(before, readings), HitTrace(readings[0], readings[1..]);
      HitTraceSpec(readings[0], readings[1..]);
      forall i | 0 <= i < |readings|
        ensures hits[i] <==> readings[i] && !Previous(before, readings, i)
      {
        if i > 0 {
          assert hits[i] == rest[i - 1];
          assert Previous(before, readings, i) == Previous(readings[0], readings[1..], i - 1);
        }
      }
    }
  }

  /** The memory left after the readings have been fed to HitIntersection one
      call at a time. */
  function MemoryAfter(before: bool, readings: seq<bool>): bool
    decreases |readings|
  {
    if readings == [] then before else MemoryAfter(readings[0], readings[1..])
  }

  /** After at least one call the memory holds the last reading, whatever it
      held before. */
  lemma {:induction false} MemoryIsLastReading(before: bool, readings: seq<bool>)
    requires readings != []
    ensures MemoryAfter(before, readings) == readings[|readings| - 1]
    decreases |readings|
  {
    if |readings| > 1 {
      MemoryIsLastReading(readings[0], readings[1..]);
    }
  }

  /** Feeding readings in two batches leaves the same memory as feeding them
      at once. */
  lemma {:induction false} MemoryAfterAppend(before: bool, r1: seq<bool>, r2: seq<bool>)
    ensures MemoryAfter(before, r1 + r2) == MemoryAfter(MemoryAfter(before, r1), r2)
    decreases |r1|
  {
    if r1 == [] {
      assert r1 + r2 == r2;
    } else {
      assert (r1 + r2)[0] == r1[0] && (r1 + r2)[1..] == r1[1..] + r2;
      MemoryAfterAppend(r1[0], r1[1..], r2);
    }
  }

  function CountTrue(s: seq<bool>): nat
    decreases |s|
  {
    if s == [] then 0 else (if s[0] then 1 else 0) + CountTrue(s[1..])
  }

  /** Two consecutive black readings give at most one hit. */
  lemma NoHitOnSteadyBlack(before: bool, readings: seq<bool>, i: int)
    requires 0 < i < |readings| && readings[i - 1] && readings[i]
    ensures !HitTrace(before, readings)[i]
  {
    HitTraceSpec(before, readings);
  }

  /** Memory starts false, so a first black reading is a hit. */
  lemma FirstBlackIsHit(readings: seq<bool>)
    requires readings != [] && readings[0]
    ensures HitTrace(false, readings)[0]
  {
    HitTraceSpec(false, readings);
  }

  /** Hits never outnumber half the readings: a hit needs a non-black reading
      (or the initial false memory) before it. */
  lemma {:induction false} HitsBounded(before: bool, readings: seq<bool>)
    ensures CountTrue(HitTrace(before, readings)) <= (|readings| + (if before then 0 else 1)) / 2
    decreases |readings|
  {
    if readings != [] {
      HitsBounded(readings[0], readings[1..]);
      assert HitTrace(before, readings) == [readings[0] && !before] + HitTrace(readings[0], readings[1..]);
      assert CountTrue(HitTrace(before, readings))
          == (if readings[0] && !before then 1 else 0) + CountTrue(HitTrace(readings[0], readings[1..]));
    }
  }

  /** Feeding readings in two batches is the same as feeding them in one:
      the memory carries the first batch's last reading into the second. */
  lemma {:induction false} HitTraceAppend(before: bool, r1: seq<bool>, r2: seq<bool>)
    ensures HitTrace(before, r1 + r2) == HitTrace(before, r1) + HitTrace(MemoryAfter(before, r1), r2)
    decreases |r1|
  {
    if r1 == [] {
      assert r1 + r2 == r2;
    } else {
      assert (r1 + r2)[0] == r1[0] && (r1 + r2)[1..] == r1[1..] + r2;
      HitTraceAppend(r1[0], r1[1..], r2);
    }
  }
}

=== FILE: reactor_comms.dfy ===
/** The field-link protocol spoken with the reactor control module over the
    HC-05 serial bridge. Frames are `START LEN TYPE SRC DST payload... CHECKSUM`,
    where LEN counts every byte after START. */
module ReactorComms {

  /** An unsigned 8-bit value; wrap-around is written out as `% 256`. */
  type byte = b: int | 0 <= b < 256

  const START: byte := 0x5F
  const FIELD_ID: byte := 0x00
  const ROBOT_ID: byte := 0x07

  const TYPE_STORAGE: byte := 0x01
  const TYPE_SUPPLY: byte := 0x02
  const TYPE_RAD_ALERT: byte := 0x03
  const TYPE_STOP: byte := 0x04
  const TYPE_RESUME: byte := 0x05
  const TYPE_HEARTBEAT: byte := 0x07

  /** Alert payload selectors: a new rod is high radiation, a spent rod low. */
  const RADIATION_HI: bool := true
  const RADIATION_LO: bool := false

  const PAYLOAD_NEW_ROD: byte := 0xFF
  const PAYLOAD_SPENT_ROD: byte := 0x2C

  // ---------------------------------------------------------------------
  // Checksum arithmetic
  // ---------------------------------------------------------------------

  /** Subtraction of two bytes, wrapping around below zero as the 8-bit
      `checkSum -= b` does. */
  function WrapSub(a: byte, b: byte): (r: byte)
    ensures r == (a - b) % 256
  {
    if a >= b then a - b else a - b + 256
  }

  /** The checksum accumulator after `bytes` went through the private read() or
      write(), starting from `acc`: each byte is subtracted modulo 256. */
  function Accumulate(acc: byte, bytes: seq<byte>): byte
    decreases |bytes|
  {
    if bytes == [] then acc else Accumulate(WrapSub(acc, bytes[0]), bytes[1..])
  }

  /** The sum of `bytes`, without wrap-around. */
  function Sum(bytes: seq<byte>): int
    decreases |bytes|
  {
    if bytes == [] then 0 else bytes[0] + Sum(bytes[1..])
  }

  lemma {:induction false} SumAppend(a: seq<byte>, b: seq<byte>)
    ensures Sum(a + b) == Sum(a) + Sum(b)
    decreases |a|
  {
    if a == [] {
      assert a + b == b;
    } else {
      SumAppend(a[1..], b);
      assert (a + b)[1..] == a[1..] + b;
    }
  }

  /** Reducing modulo 256 before a subtraction does not change the result. */
  lemma ModSub(x: int, y: int)
    ensures (x % 256 - y) % 256 == (x - y) % 256
  {
    var q := x / 256;
    assert x == q * 256 + x % 256;
    assert x - y == q * 256 + (x % 256 - y);
  }

  /** The accumulator is the starting value minus the sum of the bytes, modulo 256. */
  lemma {:induction false} AccumulateIsDifference(acc: byte, bytes: seq<byte>)
    ensures Accumulate(acc, bytes) == (acc - Sum(bytes)) % 256
    decreases |bytes|
  {
    if bytes != [] {
      AccumulateIsDifference(WrapSub(acc, bytes[0]), bytes[1..]);
      ModSub(acc - bytes[0], Sum(bytes[1..]));
    }
  }

  /** Starting from 0xFF, the accumulator reaches 0x00 exactly when the bytes
      sum to 0xFF modulo 256. */
  lemma ChecksumIsComplement(bytes: seq<byte>)
    ensures Accumulate(0xFF, bytes) == 0 <==> Sum(bytes) % 256 == 0xFF
  {
    AccumulateIsDifference(0xFF, bytes);
  }

  /** One more byte through read() or write(). */
  lemma AccumulateSnoc(acc: byte, bytes: seq<byte>, b: byte)
    ensures Accumulate(acc, bytes + [b]) == WrapSub(Accumulate(acc, bytes), b)
  {
    AccumulateIsDifference(acc, bytes);
    AccumulateIsDifference(acc, bytes + [b]);
    SumAppend(bytes, [b]);
    ModSub(acc - Sum(bytes), b);
  }

  // ---------------------------------------------------------------------
  // The latched state and the receive path
  // ---------------------------------------------------------------------

  /** The three pieces of state that received frames latch. */
  datatype Latches = Latches(robotEnabled: bool, storData: byte, fuelData: byte)

  /** A frame body is the LEN bytes that follow START: LEN, TYPE, SRC, DST,
      payload..., CHECKSUM. The receiver copies it into `msg[1..]`, so
      `msg[2]` is `body[1]` (type), `msg[3]` is `body[2]` (source),
      `msg[4]` is `body[3]` (destination) and `msg[5]` is `body[4]`.
      START itself is consumed without going through the checksum. */
  predicate ChecksumPasses(body: seq<byte>)
  {
    Accumulate(0xFF, body) == 0
  }

  /** The conditions under which update() reads and writes `msg[]` only within
      its LEN + 1 elements: LEN is neither 0 nor 0xFF (so `msg[1]` exists),
      the source byte exists once the checksum has passed, and the first payload
      byte exists when an accepted frame is a tube-availability frame. */
  predicate InBounds(body: seq<byte>)
  {
    && 1 <= |body| <= 0xFE
    && body[0] == |body|
    && (ChecksumPasses(body) ==> |body| >= 3)
    && (ChecksumPasses(body) && body[2] == FIELD_ID && (body[1] == TYPE_STORAGE || body[1] == TYPE_SUPPLY)
        ==> |body| >= 5)
  }

  /** A frame is accepted when its checksum passes and it comes from the
      field controller. The destination byte is not consulted. */
  predicate Accepted(body: seq<byte>)
    requires InBounds(body)
  {
    ChecksumPasses(body) && body[2] == FIELD_ID
  }

  /** What one frame does to the latched state. */
  function ApplyFrame(l: Latches, body: seq<byte>): Latches
    requires InBounds(body)
  {
    if Accepted(body) then
      if body[1] == TYPE_STORAGE then l.(storData := body[4])
      else if body[1] == TYPE_SUPPLY then l.(fuelData := body[4])
      else if body[1] == TYPE_STOP then l.(robotEnabled := false)
      else if body[1] == TYPE_RESUME then l.(robotEnabled := true)
      else l
    else l
  }

  /** A receive buffer that update() can drain without blocking forever or
      indexing outside `msg[]`: every START byte met while scanning is followed
      by a complete, in-bounds frame. */
  predicate Framed(s: seq<byte>)
    decreases |s|
  {
    if s == [] then true
    else if s[0] != START then Framed(s[1..])
    else
      && |s| >= 2
      && |s| >= s[1] as int + 1
      && InBounds(s[1..s[1] + 1])
      && Framed(s[s[1] + 1..])
  }

  /** The latched state after update() has drained the buffer `s`. */
  function Drain(l: Latches, s: seq<byte>): Latches
    requires Framed(s)
    decreases |s|
  {
    if s == [] then l
    else if s[0] != START then Drain(l, s[1..])
    else Drain(ApplyFrame(l, s[1..s[1] + 1]), s[s[1] + 1..])
  }

  /** A frame changes the latched state only if its bytes after START sum to
      0xFF modulo 256 and its source is the field controller; when it is
      accepted it changes exactly the field its type selects, and types other
      than 1, 2, 4 and 5 change nothing. */
  lemma FrameEffect(l: Latches, body: seq<byte>)
    requires InBounds(body)
    ensures ApplyFrame(l, body) != l ==> Sum(body) % 256 == 0xFF && body[2] == FIELD_ID
    ensures !Accepted(body) ==> ApplyFrame(l, body) == l
    ensures Accepted(body) ==>
      match body[1]
      case 0x01 => ApplyFrame(l, body) == l.(storData := body[4])
      case 0x02 => ApplyFrame(l, body) == l.(fuelData := body[4])
      case 0x04 => ApplyFrame(l, body) == l.(robotEnabled := false)
      case 0x05 => ApplyFrame(l, body) == l.(robotEnabled := true)
      case _ => ApplyFrame(l, body) == l
  {
    ChecksumIsComplement(body);
  }

  /** Acceptance does not depend on the destination byte: rewriting it, and
      compensating in the checksum byte so that the sum is kept, gives a frame
      with the same effect. */
  lemma DestinationIgnored(l: Latches, body: seq<byte>, dst: byte)
    requires InBounds(body) && |body| >= 5
    requires |body| == 5 ==> body[1] != TYPE_STORAGE && body[1] != TYPE_SUPPLY
    ensures var last := |body| - 1;
            var other := body[3 := dst][last := (body[last] + body[3] - dst) % 256];
            InBounds(other) && ApplyFrame(l, other) == ApplyFrame(l, body)
  {
    var last := |body| - 1;
    var fix: byte := (body[last] + body[3] - dst) % 256;
    var other := body[3 := dst][last := fix];
    var a, b := body[..3], body[4..last];
    assert body == a + [body[3]] + b + [body[last]];
    assert other == a + [dst] + b + [fix];
    SumAppend(a + [body[3]] + b, [body[last]]);
    SumAppend(a + [body[3]], b);
    SumAppend(a, [body[3]]);
    SumAppend(a + [dst] + b, [fix]);
    SumAppend(a + [dst], b);
    SumAppend(a, [dst]);
    ModSub(body[last] + body[3] - dst, -(Sum(a) + dst + Sum(b)));
    assert Sum(other) % 256 == Sum(body) % 256;
    ChecksumIsComplement(body);
    ChecksumIsComplement(other);
  }

  /** In a five-byte tube-availability frame there is no payload byte: the
      byte update() latches from `msg[5]` is the checksum byte, so such a
      frame's effect depends on its destination byte. */
  lemma ShortStorageFrameLatchesChecksum(l: Latches)
    ensures InBounds([5, 1, 0, 0, 0xF9]) && ApplyFrame(l, [5, 1, 0, 0, 0xF9]).storData == 0xF9
    ensures InBounds([5, 1, 0, 1, 0xF8]) && ApplyFrame(l, [5, 1, 0, 1, 0xF8]).storData == 0xF8
  {
    assert Accumulate(0xFF, [5, 1, 0, 0, 0xF9]) == 0;
    assert Accumulate(0xFF, [5, 1, 0, 1, 0xF8]) == 0;
  }

  /** The receive check catches every single-byte corruption: changing any one
      byte of a body that passes makes it fail. */
  lemma SingleByteErrorDetected(body: seq<byte>, i: int, b: byte)
    requires ChecksumPasses(body) && 0 <= i < |body| && b != body[i]
    ensures !ChecksumPasses(body[i := b])
  {
    var other := body[i := b];
    var front, back := body[..i], body[i + 1..];
    assert body == front + [body[i]] + back;
    assert other == front + [b] + back;
    SumAppend(front + [body[i]], back);
    SumAppend(front, [body[i]]);
    SumAppend(front + [b], back);
    SumAppend(front, [b]);
    ChecksumIsComplement(body);
    ChecksumIsComplement(other);
  }

  /** Bytes scanned outside a frame are consumed without any effect. */
  lemma {:induction false} NoiseIgnored(l: Latches, noise: seq<byte>, s: seq<byte>)
    requires START !in noise && Framed(s)
    ensures Framed(noise + s) && Drain(l, noise + s) == Drain(l, s)
    decreases |noise|
  {
    if noise == [] {
      assert noise + s == s;
    } else {
      assert (noise + s)[0] == noise[0];
      assert (noise + s)[1..] == noise[1..] + s;
      NoiseIgnored(l, noise[1..], s);
    }
  }

  /** The enable flag update() leaves depends only on the frames received and
      on its old value, never on the tube bitmaps. */
  lemma {:induction false} EnableIgnoresBitmaps(l: Latches, s: seq<byte>, stor: byte, fuel: byte)
    requires Framed(s)
    ensures Drain(l, s).robotEnabled == Drain(l.(storData := stor, fuelData := fuel), s).robotEnabled
    decreases |s|
  {
    var k := l.(storData := stor, fuelData := fuel);
    if s != [] {
      if s[0] != START {
        EnableIgnoresBitmaps(l, s[1..], stor, fuel);
      } else {
        var body := s[1..s[1] + 1];
        var l1, k1 := ApplyFrame(l, body), ApplyFrame(k, body);
        assert k1 == l1.(storData := k1.storData, fuelData := k1.fuelData);
        EnableIgnoresBitmaps(l1, s[s[1] + 1..], k1.storData, k1.fuelData);
      }
    }
  }

  /** Draining two buffers one after the other is draining their concatenation. */
  lemma {:induction false} DrainAppend(l: Latches, s1: seq<byte>, s2: seq<byte>)
    requires Framed(s1) && Framed(s2)
    ensures Framed(s1 + s2) && Drain(l, s1 + s2) == Drain(Drain(l, s1), s2)
    decreases |s1|
  {
    FramedAppend(s1, s2);
    if s1 == [] {
      assert s1 + s2 == s2;
    } else if s1[0] != START {
      assert (s1 + s2)[1..] == s1[1..] + s2;
      DrainAppend(l, s1[1..], s2);
    } else {
      var n := s1[1] as int;
      DrainAppend(ApplyFrame(l, s1[1..n + 1]), s1[n + 1..], s2);
      AppendAfterFrame(s1, s2);
    }
  }

  /** Two buffers that can be drained can be drained one after the other. */
  lemma {:induction false} FramedAppend(s1: seq<byte>, s2: seq<byte>)
    requires Framed(s1) && Framed(s2)
    ensures Framed(s1 + s2)
    decreases |s1|
  {
    if s1 == [] {
      assert s1 + s2 == s2;
    } else if s1[0] != START {
      FramedAppend(s1[1..], s2);
      AppendAfterSkip(s1, s2);
    } else {
      FramedAppend(s1[s1[1] + 1..], s2);
      AppendAfterFrame(s1, s2);
    }
  }

  /** Appending to a buffer that starts with a byte other than START. */
  lemma AppendAfterSkip(s1: seq<byte>, s2: seq<byte>)
    requires s1 != [] && s1[0] != START && Framed(s1[1..] + s2)
    ensures Framed(s1 + s2)
  {
    var t := s1 + s2;
    assert t[0] == s1[0] && t[1..] == s1[1..] + s2;
  }

  /** Appending to a buffer that starts with a frame: the frame is the same
      and what follows it is extended. */
  lemma AppendAfterFrame(s1: seq<byte>, s2: seq<byte>)
    requires s1 != [] && s1[0] == START && Framed(s1) && Framed(s1[s1[1] + 1..] + s2)
    ensures var n := s1[1] as int;
      && (s1 + s2)[1..n + 1] == s1[1..n + 1]
      && (s1 + s2)[n + 1..] == s1[n + 1..] + s2
      && Framed(s1 + s2)
  {
    var t, n := s1 + s2, s1[1] as int;
    assert t[0] == START && t[1] == s1[1];
    assert t[1..n + 1] == s1[1..n + 1];
    assert t[n + 1..] == s1[n + 1..] + s2;
  }

  // ---------------------------------------------------------------------
  // Tube availability queries
  // ---------------------------------------------------------------------

  /** Bit `k` (0..7) of `b`, computed by shifting. */
  predicate BitSet(b: byte, k: nat)
    requires k < 8
  {
    ((b as bv8) >> k) & 1 == 1
  }

  /** `storageAvailable(id)`: a storage tube is empty when its bit is clear. */
  function StorageAvailable(storData: byte, id: int): (r: bool)
    ensures r <==> 1 <= id <= 4 && !BitSet(storData, id - 1)
  {
    var bits := storData as bv8;
    if id == 1 then (bits & 0x01) != 0x01
    else if id == 2 then (bits & 0x02) != 0x02
    else if id == 3 then (bits & 0x04) != 0x04
    else if id == 4 then (bits & 0x08) != 0x08
    else false
  }

  /** `supplyAvailable(id)`: a supply tube is full when its bit is set. */
  function SupplyAvailable(fuelData: byte, id: int): (r: bool)
    ensures r <==> 1 <= id <= 4 && BitSet(fuelData, id - 1)
  {
    var bits := fuelData as bv8;
    if id == 1 then (bits & 0x01) == 0x01
    else if id == 2 then (bits & 0x02) == 0x02
    else if id == 3 then (bits & 0x04) == 0x04
    else if id == 4 then (bits & 0x08) == 0x08
    else false
  }

  /** A fresh object reads every storage tube as available and no supply tube. */
  lemma FreshAvailability(id: int)
    requires 1 <= id <= 4
    ensures StorageAvailable(0x00, id) && !SupplyAvailable(0x00, id)
  {
  }

  // ---------------------------------------------------------------------
  // The send path
  // ---------------------------------------------------------------------

  /** A frame as the send path writes it: the bytes, START included, followed by
      the checksum accumulated over them; all its bytes sum to 0xFF. */
  function Seal(bytes: seq<byte>): (frame: seq<byte>)
    ensures |frame| == |bytes| + 1 && frame[..|bytes|] == bytes
    ensures Sum(frame) % 256 == 0xFF
  {
    var c := Accumulate(0xFF, bytes);
    AccumulateIsDifference(0xFF, bytes);
    SumAppend(bytes, [c]);
    ModSub(0xFF - Sum(bytes), -Sum(bytes));
    bytes + [c]
  }

  function HeartBeatFrame(): seq<byte>
  {
    Seal([START, 0x05, TYPE_HEARTBEAT, ROBOT_ID, FIELD_ID])
  }

  function RadAlertFrame(high: bool): seq<byte>
  {
    Seal([START, 0x06, TYPE_RAD_ALERT, ROBOT_ID, FIELD_ID, if high then PAYLOAD_NEW_ROD else PAYLOAD_SPENT_ROD])
  }

  /** The exact bytes of both outbound frames. */
  lemma OutboundBytes()
    ensures HeartBeatFrame() == [0x5F, 0x05, 0x07, 0x07, 0x00, 0x8D]
    ensures RadAlertFrame(RADIATION_HI) == [0x5F, 0x06, 0x03, 0x07, 0x00, 0xFF, 0x91]
    ensures RadAlertFrame(RADIATION_LO) == [0x5F, 0x06, 0x03, 0x07, 0x00, 0x2C, 0x64]
  {
    assert [START, 0x05, TYPE_HEARTBEAT, ROBOT_ID, FIELD_ID] == [0x5F, 0x05, 0x07, 0x07, 0x00];
    assert Accumulate(0xFF, [0x5F, 0x05, 0x07, 0x07, 0x00]) == 0x8D;
    assert [START, 0x06, TYPE_RAD_ALERT, ROBOT_ID, FIELD_ID, PAYLOAD_NEW_ROD] == [0x5F, 0x06, 0x03, 0x07, 0x00, 0xFF];
    assert Accumulate(0xFF, [0x5F, 0x06, 0x03, 0x07, 0x00, 0xFF]) == 0x91;
    assert [START, 0x06, TYPE_RAD_ALERT, ROBOT_ID, FIELD_ID, PAYLOAD_SPENT_ROD] == [0x5F, 0x06, 0x03, 0x07, 0x00, 0x2C];
    assert Accumulate(0xFF, [0x5F, 0x06, 0x03, 0x07, 0x00, 0x2C]) == 0x64;
  }

  /** The receiver leaves START out of its checksum while the sender counts it,
      so a frame produced by the send path fails the receive check. */
  lemma SentFrameFailsReceiveCheck(high: bool)
    ensures !ChecksumPasses(HeartBeatFrame()[1..])
    ensures !ChecksumPasses(RadAlertFrame(high)[1..])
  {
    OutboundBytes();
    assert HeartBeatFrame()[1..] == [0x05, 0x07, 0x07, 0x00, 0x8D];
    assert Accumulate(0xFF, [0x05, 0x07, 0x07, 0x00, 0x8D]) == 0x5F;
    if high {
      assert RadAlertFrame(high)[1..] == [0x06, 0x03, 0x07, 0x00, 0xFF, 0x91];
      assert Accumulate(0xFF, [0x06, 0x03, 0x07, 0x00, 0xFF, 0x91]) == 0x5F;
    } else {
      assert RadAlertFrame(high)[1..] == [0x06, 0x03, 0x07, 0x00, 0x2C, 0x64];
      assert Accumulate(0xFF, [0x06, 0x03, 0x07, 0x00, 0x2C, 0x64]) == 0x5F;
    }
  }

  // ---------------------------------------------------------------------
  // The ReactorComms object
  // ---------------------------------------------------------------------

  class Comms {
    var robotEnabled: bool
    var storData: byte
    var fuelData: byte
    var checkSum: byte
    /** Bytes waiting in the serial receive buffer. */
    var rx: seq<byte>
    /** Every byte written to the serial port so far. */
    var tx: seq<byte>

    /** Construction: disabled, both bitmaps zero, accumulator 0xFF. */
    constructor ()
      ensures State() == Latches(false, 0x00, 0x00)
      ensures checkSum == 0xFF && rx == [] && tx == []
    {
      robotEnabled, storData, fuelData := false, 0x00, 0x00;
      checkSum := 0xFF;
      rx, tx := [], [];
    }

    function State(): Latches
      reads this
    {
      Latches(robotEnabled, storData, fuelData)
    }

    /** getRobotEnabled(): the flag latched by the last accepted STOP or
        RESUME frame, false before any. */
    function GetRobotEnabled(): (r: bool)
      reads this
      ensures r == State().robotEnabled
    {
      robotEnabled
    }

    /** The private read(): takes one byte and subtracts it from the checksum. */
    method Read() returns (b: byte)
      requires rx != []
      modifies this`rx, this`checkSum
      ensures b == old(rx[0]) && rx == old(rx[1..])
      ensures checkSum == WrapSub(old(checkSum), b)
    {
      b := rx[0];
      rx := rx[1..];
      checkSum := WrapSub(checkSum, b);
    }

    /** The private write(): emits one byte and subtracts it from the checksum. */
    method Write(b: byte)
      modifies this`tx, this`checkSum
      ensures tx == old(tx) + [b]
      ensures checkSum == WrapSub(old(checkSum), b)
    {
      tx := tx + [b];
      checkSum := WrapSub(checkSum, b);
    }

    /** The frame-reading half of update(), entered just after a START byte:
        resets the checksum, reads LEN and the LEN - 1 bytes that follow into
        `msg`, and leaves the checksum accumulated over the whole body. */
    method ReadFrame(ghost body: seq<byte>, ghost rest: seq<byte>) returns (msg: array<byte>)
      requires rx == body + rest && InBounds(body)
      modifies this`rx, this`checkSum
      ensures fresh(msg) && msg.Length == |body| + 1
      ensures rx == rest
      ensures checkSum == Accumulate(0xFF, body)
      ensures msg[0] == START && msg[1] == msg.Length
      ensures forall k :: 2 <= k < msg.Length ==> msg[k] == body[k - 1]
    {
      checkSum := 0xFF;
      var n := Read();
      assert [n] == body[..1];
      var len: byte := (n + 1) % 256;
      msg := new byte[len];
      msg[0] := START;
      msg[1] := len;
      for i := 2 to len
        invariant rx == body[i - 1..] + rest
        invariant checkSum == Accumulate(0xFF, body[..i - 1])
        invariant msg[0] == START && msg[1] == len
        invariant forall k :: 2 <= k < i ==> msg[k] == body[k - 1]
      {
        assert body[..i] == body[..i - 1] + [body[i - 1]];
        assert body[i - 1..] + rest == [body[i - 1]] + (body[i..] + rest);
        AccumulateSnoc(0xFF, body[..i - 1], body[i - 1]);
        msg[i] := Read();
      }
      assert body[..len - 1] == body;
    }

    /** update(): drains the receive buffer, applying every frame it finds. */
    method Update()
      requires Framed(rx)
      modifies this
      ensures rx == [] && tx == old(tx)
      ensures State() == Drain(old(State()), old(rx))
    {
      while rx != []
        invariant Framed(rx) && tx == old(tx)
        invariant Drain(State(), rx) == Drain(old(State()), old(rx))
        decreases |rx|
      {
        ghost var scanned := rx;
        var first := rx[0];
        rx := rx[1..];
        if first == START {
          ghost var body := scanned[1..scanned[1] as int + 1];
          ghost var rest := scanned[scanned[1] as int + 1..];
          assert InBounds(body) && Framed(rest);
          assert rx == body + rest;
          var msg := ReadFrame(body, rest);
          if checkSum == 0x00 && msg[3] == FIELD_ID {
            if msg[2] == TYPE_STORAGE {
              storData := msg[5];
            } else if msg[2] == TYPE_SUPPLY {
              fuelData := msg[5];
            } else if msg[2] == TYPE_STOP {
              robotEnabled := false;
            } else if msg[2] == TYPE_RESUME {
              robotEnabled := true;
            }
          }
        }
      }
    }

    /** sendHeartBeat(): writes one heartbeat frame. */
    method SendHeartBeat()
      modifies this`tx, this`checkSum
      ensures tx == old(tx) + HeartBeatFrame()
      ensures checkSum == 0x00
    {
      OutboundBytes();
      checkSum := 0xFF;
      Write(START);
      Write(0x05);
      Write(TYPE_HEARTBEAT);
      Write(ROBOT_ID);
      Write(FIELD_ID);
      Write(checkSum);
    }

    /** sendRadAlert(high): writes one radiation alert frame. */
    method SendRadAlert(high: bool)
      modifies this`tx, this`checkSum
      ensures tx == old(tx) + RadAlertFrame(high)
      ensures checkSum == 0x00
    {
      OutboundBytes();
      checkSum := 0xFF;
      Write(START);
      Write(0x06);
      Write(TYPE_RAD_ALERT);
      Write(ROBOT_ID);
      Write(FIELD_ID);
      if high {
        Write(PAYLOAD_NEW_ROD);
      } else {
        Write(PAYLOAD_SPENT_ROD);
      }
      Write(checkSum);
    }
  }

  /** A storage frame `5F 06 01 00 00 05 F3` (its checksum byte is valid)
      latches the bitmap 0x05: tubes 1 and 3 are occupied, 2 and 4 are free. */
  lemma StorageFrameScenario(l: Latches)
    ensures var frame := [START, 0x06, 0x01, 0x00, 0x00, 0x05, 0xF3];
            Framed(frame) && Drain(l, frame) == l.(storData := 0x05) &&
            !StorageAvailable(0x05, 1) && StorageAvailable(0x05, 2) &&
            !StorageAvailable(0x05, 3) && StorageAvailable(0x05, 4)
  {
    var frame: seq<byte> := [START, 0x06, 0x01, 0x00, 0x00, 0x05, 0xF3];
    assert frame[1..7] == [0x06, 0x01, 0x00, 0x00, 0x05, 0xF3];
    assert Accumulate(0xFF, [0x06, 0x01, 0x00, 0x00, 0x05, 0xF3]) == 0;
    assert frame[7..] == [];
  }
}

=== FILE: state_machine.dfy ===
/** The ReactorBot operating state machine: internal odometry on the field
    grid, the task cycle (empty the reactor, fill a storage tube, fetch a supply
    rod, refuel the reactor, then switch reactors), and the states that drive,
    turn, move the arm and the gripper within a task. One call of RobotLoop is
    one pass of the robot's main loop. */
module StateMachine {
  import opened Field
  import ReactorComms
  import Bluetooth
  import LineFollower

  /** The reactor being refuelled. The enumerator values equal the reactors'
      x coordinates (A = 1, B = 6); `ReactorUnset` is the zero the global holds
      until BEGIN first runs. */
  datatype Reactor = ReactorUnset | A | B
  {
    /** The enumerator's integer value. */
    function Value(): int
    {
      match this
      case ReactorUnset => 0
      case A => 1
      case B => 6
    }
  }

  datatype Task = EmptyReactor | FillStorage | GetSupply | FillReactor

  datatype State =
    | Begin | DecideX | TurnToX | GotoX | PrepDeposit1 | PrepDeposit2
    | ApproachReactor | InchX | DecideY | TurnToY | GotoY | DecideArm
    | ArmForward | DecideGripper | MoveGripper | ArmReverse | BackToLine
    | InchY | SetTask | PickStorage | PickSupply

  /** The radiation level reported to the field and shown on the LED.
      `RadUnset` is the zero the global holds until BEGIN first runs. */
  datatype Radiation = RadUnset | RadNone | RadLow | RadHigh
  {
    /** The enumerator's integer value, as passed to the Bluetooth loop. */
    function Level(): int
    {
      match this
      case RadUnset => 0
      case RadNone => 1
      case RadLow => 2
      case RadHigh => 3
    }
  }

  /** Field headings: up (0), right (pi/2), down (pi) and left (3 pi/2).
      The heading global starts at 0.0, which is up. */
  datatype Heading = U | R | D | L

  /** The two kinds of tube the robot picks from. */
  datatype Tube = Storage | Supply

  /** Drive voltages: line following, reactor approach, and reversing. */
  const DRIVE_VOLTS: int := 4
  const APPROACH_VOLTS: int := 2

  /** Arm set points (10-bit potentiometer readings). */
  const ANGLE_BACK: int := 543
  const ANGLE_TUBE: int := 344
  const ANGLE_PREP_1: int := 294
  const ANGLE_PREP_2: int := 305
  const ANGLE_PICKUP: int := 69
  const ANGLE_DROPOFF: int := 110

  /** What one pass observes from the hardware. Each field is the value a
      sensor read or a one-iteration controller call returns on this pass. */
  datatype Inputs = Inputs(
    onBlack: bool,         // the line sensor sees black (read by hitIntersection)
    headingBelowPi: bool,  // the gyro heading is below pi (facing right)
    turned: bool,          // the gyro turn has settled on the target heading
    armSettled: bool,      // the arm PID has settled on its set point
    reactorPressed: bool,  // the reactor limit switch is pressed
    tubePressed: bool,     // the tube limit switch is pressed
    gripperReady: bool,    // the gripper has finished its motion
    inchReached: bool      // the encoders have turned far enough to centre the robot
  )

  /** A call the pass makes into a drive, arm, gripper or LED module. */
  datatype Command =
    | LineFollow(volts: int)   // one PID step of line following at that voltage
    | GyroTurn(h: Heading)     // one step of the gyro turn towards `h`
    | ArmTo(angle: int)        // one step of the arm PID towards `angle`
    | Brake                    // both drive motors brake
    | ZeroEncoders             // both drive encoders are zeroed
    | GripperClose
    | GripperOpen
    | BackUp                   // gyro drive backwards at 4 V
    | Led(level: Radiation)    // the indicator LED shows a level

  /** The state machine's globals, and the line detector's one bit of memory. */
  datatype Machine = Machine(
    state: State,
    task: Task,
    reactor: Reactor,
    radiation: Radiation,
    currentPos: FieldPosition,
    targetPos: FieldPosition,
    targetHeading: Heading,
    targetArmAngle: int,
    blackBefore: bool
  )

  /** The result of one pass: the new globals and the calls made, in order. */
  datatype Step = Step(after: Machine, commands: seq<Command>)

  /** The globals once robotSetup() has run: at (2, 0), heading up, aiming at
      reactor A, in BEGIN. */
  const INITIAL: Machine :=
    Machine(Begin, EmptyReactor, ReactorUnset, RadUnset, FieldPosition(2, 0), REACTOR_A, U, 0, false)

  // ---------------------------------------------------------------------
  // Helpers of the state machine
  // ---------------------------------------------------------------------

  /** `atReactor()`: the robot stands on one of the two reactor cells. */
  function AtReactor(p: FieldPosition): (r: bool)
    ensures r <==> p == REACTOR_A || p == REACTOR_B
  {
    Same(p, REACTOR_A) || Same(p, REACTOR_B)
  }

  /** The cell of a reactor: on the middle row, in the column its enumerator
      value names. */
  function ReactorCell(r: Reactor): (p: FieldPosition)
    requires r != ReactorUnset
    ensures p == FieldPosition(r.Value(), 0) && AtReactor(p)
  {
    if r == A then REACTOR_A else REACTOR_B
  }

  /** The tube-availability query the pick states ask of the field link. */
  predicate TubeFree(kind: Tube, bits: ReactorComms.byte, id: int)
  {
    if kind == Storage then ReactorComms.StorageAvailable(bits, id)
    else ReactorComms.SupplyAvailable(bits, id)
  }

  function TubeCell(kind: Tube, id: int): FieldPosition
    requires 1 <= id <= 4
  {
    if kind == Storage then STORAGE[id - 1] else SUPPLY[id - 1]
  }

  /** The scan `for i = top downto 1`, stopping at the first free tube: the
      highest free id not above `top`, or 0 when none is free. */
  function ScanDown(kind: Tube, bits: ReactorComms.byte, top: int): (id: int)
    requires 0 <= top <= 4
    ensures 0 <= id <= top
    ensures id != 0 ==> TubeFree(kind, bits, id)
    ensures forall j :: id < j <= top ==> !TubeFree(kind, bits, j)
    decreases top
  {
    if top == 0 then 0
    else if TubeFree(kind, bits, top) then top
    else ScanDown(kind, bits, top - 1)
  }

  /** The scan `for i = bottom to 4`, stopping at the first free tube: the
      lowest free id not below `bottom`, or 0 when none is free. */
  function ScanUp(kind: Tube, bits: ReactorComms.byte, bottom: int): (id: int)
    requires 1 <= bottom <= 5
    ensures id == 0 || bottom <= id <= 4
    ensures id != 0 ==> TubeFree(kind, bits, id)
    ensures forall j :: bottom <= j <= 4 && (id == 0 || j < id) ==> !TubeFree(kind, bits, j)
    decreases 5 - bottom
  {
    if bottom == 5 then 0
    else if TubeFree(kind, bits, bottom) then bottom
    else ScanUp(kind, bits, bottom + 1)
  }

  /** The tube a pick state chooses for the current reactor (0: none free).
      From reactor A storage is scanned 4..1 and supply 1..4; from reactor B
      the other way round. */
  function PickedTube(kind: Tube, reactor: Reactor, bits: ReactorComms.byte): int
  {
    if (reactor == A) == (kind == Storage) && reactor != ReactorUnset then ScanDown(kind, bits, 4)
    else if reactor != ReactorUnset then ScanUp(kind, bits, 1)
    else 0
  }

  /** A pick state's effect: aim at the chosen tube and decide x, or stay. */
  function Pick(m: Machine, kind: Tube, bits: ReactorComms.byte): Machine
  {
    var id := PickedTube(kind, m.reactor, bits);
    if id == 0 then m else m.(targetPos := TubeCell(kind, id), state := DecideX)
  }

  /** The LED update at the end of every pass. */
  function LedCommands(r: Radiation): seq<Command>
  {
    if r == RadUnset then [] else [Led(r)]
  }

  // ---------------------------------------------------------------------
  // One pass of robotLoop()
  // ---------------------------------------------------------------------

  /** The cases of the switch, in five groups in the order they are written:
      the x leg, arriving in the target column, the y leg, handling a rod, and
      planning the next leg. */
  const LEGX_STATES: set<State> := {Begin, DecideX, TurnToX, GotoX}
  const ARRIVE_STATES: set<State> := {PrepDeposit1, PrepDeposit2, ApproachReactor, InchX}
  const LEGY_STATES: set<State> := {DecideY, TurnToY, GotoY}
  const HANDLE_STATES: set<State> := {DecideArm, ArmForward, DecideGripper, MoveGripper, ArmReverse}
  const PLAN_STATES: set<State> := {BackToLine, InchY, SetTask, PickStorage, PickSupply}

  /** The first leg, along x: reset at BEGIN, choose a heading, turn, and follow
      the line counting crossings until the target column. */
  function LegX(m: Machine, obs: Inputs): Step
    requires m.state in LEGX_STATES
  {
    match m.state
    case Begin =>
      Step(m.(reactor := A, task := EmptyReactor, state := DecideX, radiation := RadNone, targetPos := REACTOR_A), [])
    case DecideX =>
      if m.targetPos.x == m.currentPos.x then Step(m.(state := DecideY), [])
      else Step(m.(targetHeading := if m.targetPos.x > m.currentPos.x then R else L, state := TurnToX), [])
    case TurnToX =>
      Step(if obs.turned then m.(state := GotoX) else m, [GyroTurn(m.targetHeading)])
    case GotoX =>
      var hit := obs.onBlack && !m.blackBefore;
      var x := if !hit then m.currentPos.x else if obs.headingBelowPi then m.currentPos.x + 1 else m.currentPos.x - 1;
      var w := m.(currentPos := m.currentPos.(x := x), blackBefore := obs.onBlack);
      if x != m.targetPos.x then Step(w, [LineFollow(DRIVE_VOLTS)])
      else if m.task == EmptyReactor then Step(w.(state := ApproachReactor), [LineFollow(DRIVE_VOLTS)])
      else if m.task == FillReactor then Step(w.(state := PrepDeposit1), [LineFollow(DRIVE_VOLTS), Brake])
      else Step(w.(state := InchX), [LineFollow(DRIVE_VOLTS), ZeroEncoders])
    case _ => assert false; Step(m, [])
  }

  /** Arriving in the target column: lower the arm to deposit height and
      approach the reactor, or inch forward onto the crossing. */
  function Arrive(m: Machine, obs: Inputs): Step
    requires m.state in ARRIVE_STATES
  {
    match m.state
    case PrepDeposit1 =>
      Step(if obs.armSettled then m.(state := PrepDeposit2) else m, [ArmTo(ANGLE_PREP_1)])
    case PrepDeposit2 =>
      Step(if obs.armSettled then m.(state := ApproachReactor) else m, [ArmTo(ANGLE_PREP_2)])
    case ApproachReactor =>
      Step(if obs.reactorPressed then m.(state := DecideArm) else m, [LineFollow(APPROACH_VOLTS)])
    case InchX =>
      Step(if obs.inchReached then m.(state := DecideY) else m, [LineFollow(DRIVE_VOLTS)])
    case _ => assert false; Step(m, [])
  }

  /** The second leg, along y: choose up or down, turn, and drive until the tube
      switch closes. */
  function LegY(m: Machine, obs: Inputs): Step
    requires m.state in LEGY_STATES
  {
    match m.state
    case DecideY =>
      if m.targetPos.y == m.currentPos.y then Step(m.(state := DecideArm), [])
      else Step(m.(targetHeading := if m.targetPos.y > m.currentPos.y then U else D, state := TurnToY), [])
    case TurnToY =>
      Step(if obs.turned then m.(state := GotoY) else m, [GyroTurn(m.targetHeading)])
    case GotoY =>
      var y := if m.task == FillStorage then 1 else if m.task == GetSupply then -1 else m.currentPos.y;
      Step(if obs.tubePressed then m.(currentPos := m.currentPos.(y := y), state := DecideArm) else m,
           [LineFollow(DRIVE_VOLTS)])
    case _ => assert false; Step(m, [])
  }

  /** The handling states: brake, swing the arm out, work the gripper, swing back. */
  function Handle(m: Machine, obs: Inputs): Step
    requires m.state in HANDLE_STATES
  {
    match m.state
    case DecideArm =>
      var angle := if m.task == EmptyReactor then ANGLE_PICKUP
                   else if m.task == FillReactor then ANGLE_DROPOFF
                   else ANGLE_TUBE;
      Step(m.(targetArmAngle := angle, state := ArmForward), [Brake])
    case ArmForward =>
      Step(if obs.armSettled then m.(state := DecideGripper) else m, [ArmTo(m.targetArmAngle)])
    case DecideGripper =>
      Step(m.(state := MoveGripper),
           if m.task == EmptyReactor || m.task == GetSupply then [GripperClose] else [GripperOpen])
    case MoveGripper =>
      var level := if m.task == GetSupply then RadHigh else if m.task == EmptyReactor then RadLow else RadNone;
      Step(if obs.gripperReady then m.(radiation := level, state := ArmReverse) else m, [])
    case ArmReverse =>
      Step(if obs.armSettled then m.(state := BackToLine) else m, [ArmTo(ANGLE_BACK)])
    case _ => assert false; Step(m, [])
  }

  /** The planning states: back onto the line, choose the next task, pick a tube. */
  function Plan(m: Machine, obs: Inputs, stor: ReactorComms.byte, fuel: ReactorComms.byte): Step
    requires m.state in PLAN_STATES
  {
    match m.state
    case BackToLine =>
      var w := m.(blackBefore := obs.onBlack);
      if !(obs.onBlack && !m.blackBefore) then Step(w, [BackUp])
      else
        var p := m.currentPos.(y := 0);
        if AtReactor(p) then Step(w.(currentPos := p, state := SetTask), [BackUp])
        else Step(w.(currentPos := p, state := InchY), [BackUp, ZeroEncoders])
    case InchY =>
      Step(if obs.inchReached then m.(state := SetTask) else m, [LineFollow(DRIVE_VOLTS)])
    case SetTask =>
      var after :=
        match m.task
        case EmptyReactor => m.(task := FillStorage, state := PickStorage)
        case FillStorage => m.(task := GetSupply, state := PickSupply)
        case GetSupply =>
          m.(task := FillReactor, state := DecideX,
             targetPos := if m.reactor == A then REACTOR_A else if m.reactor == B then REACTOR_B else m.targetPos)
        case FillReactor =>
          m.(task := EmptyReactor, state := DecideX,
             reactor := if m.reactor == A then B else if m.reactor == B then A else m.reactor,
             targetPos := if m.reactor == A then REACTOR_B else if m.reactor == B then REACTOR_A else m.targetPos);
      Step(after, [Brake])
    case PickStorage =>
      Step(Pick(m, Storage, stor), [])
    case PickSupply =>
      Step(Pick(m, Supply, fuel), [])
    case _ => assert false; Step(m, [])
  }

  /** The switch of robotLoop() for one pass, given the bitmaps the field link
      holds after this pass's Bluetooth update. */
  function Switch(m: Machine, obs: Inputs, stor: ReactorComms.byte, fuel: ReactorComms.byte): Step
  {
    match m.state
    case Begin | DecideX | TurnToX | GotoX => LegX(m, obs)
    case PrepDeposit1 | PrepDeposit2 | ApproachReactor | InchX => Arrive(m, obs)
    case DecideY | TurnToY | GotoY => LegY(m, obs)
    case DecideArm | ArmForward | DecideGripper | MoveGripper | ArmReverse => Handle(m, obs)
    case BackToLine | InchY | SetTask | PickStorage | PickSupply => Plan(m, obs, stor, fuel)
  }

  /** One pass of robotLoop(): the switch, then the LED update. */
  function Next(m: Machine, obs: Inputs, stor: ReactorComms.byte, fuel: ReactorComms.byte): Step
  {
    var s := Switch(m, obs, stor, fuel);
    Step(s.after, s.commands + LedCommands(s.after.radiation))
  }

  /** What one pass of robotLoop() sees: the sensor and controller results and
      the tube bitmaps the link holds after its update. */
  datatype Pass = Pass(obs: Inputs, stor: ReactorComms.byte, fuel: ReactorComms.byte)

  /** The globals after a sequence of passes. */
  function Run(m: Machine, passes: seq<Pass>): Machine
    decreases |passes|
  {
    if passes == [] then m
    else Run(Next(m, passes[0].obs, passes[0].stor, passes[0].fuel).after, passes[1..])
  }

  // ---------------------------------------------------------------------
  // The robot
  // ---------------------------------------------------------------------

  class Robot {
    var state: State
    var task: Task
    var reactor: Reactor
    var radiation: Radiation
    var currentPos: FieldPosition
    var targetPos: FieldPosition
    var targetHeading: Heading
    var targetArmAngle: int
    /** The Bluetooth namespace's link object. */
    const com: ReactorComms.Comms
    /** The line follower's intersection detector. */
    const line: LineFollower.IntersectionDetector

    function Snapshot(): Machine
      reads this, line
    {
      Machine(state, task, reactor, radiation, currentPos, targetPos, targetHeading, targetArmAngle, line.blackBefore)
    }

    /** Static initialisation followed by robotSetup(). */
    constructor ()
      ensures Snapshot() == INITIAL
      ensures fresh(com) && com.State() == ReactorComms.Latches(false, 0x00, 0x00) && com.rx == [] && com.tx == []
    {
      com := new ReactorComms.Comms();
      line := new LineFollower.IntersectionDetector();
      currentPos := FieldPosition(2, 0);
      targetPos := REACTOR_A;
      targetHeading := U;
      targetArmAngle := 0;
      reactor := ReactorUnset;
      task := EmptyReactor;
      radiation := RadUnset;
      state := Begin;
    }

    /** The loop `for i = 4 downto 1` of a pick state: aims at the first free
        tube it meets and moves on to DECIDE_X, or changes nothing. */
    method PickDescending(kind: Tube, bits: ReactorComms.byte)
      modifies this`targetPos, this`state
      ensures var id := ScanDown(kind, bits, 4);
        if id == 0 then targetPos == old(targetPos) && state == old(state)
        else targetPos == TubeCell(kind, id) && state == DecideX
    {
      var i := 4;
      while i >= 1
        invariant 0 <= i <= 4
        invariant ScanDown(kind, bits, i) == ScanDown(kind, bits, 4)
        invariant targetPos == old(targetPos) && state == old(state)
      {
        if TubeFree(kind, bits, i) {
          targetPos := TubeCell(kind, i);
          state := DecideX;
          return;
        }
        i := i - 1;
      }
    }

    /** The loop `for i = 1 to 4` of a pick state. */
    method PickAscending(kind: Tube, bits: ReactorComms.byte)
      modifies this`targetPos, this`state
      ensures var id := ScanUp(kind, bits, 1);
        if id == 0 then targetPos == old(targetPos) && state == old(state)
        else targetPos == TubeCell(kind, id) && state == DecideX
    {
      var i := 1;
      while i <= 4
        invariant 1 <= i <= 5
        invariant ScanUp(kind, bits, i) == ScanUp(kind, bits, 1)
        invariant targetPos == old(targetPos) && state == old(state)
      {
        if TubeFree(kind, bits, i) {
          targetPos := TubeCell(kind, i);
          state := DecideX;
          return;
        }
        i := i + 1;
      }
    }

    /** `robotLoop()`: the Bluetooth pass (with the radiation level as it was
        before this pass), then one step of the state machine, then the LED. */
    method RobotLoop(obs: Inputs, elapsed: bool) returns (actions: seq<Bluetooth.Action>, commands: seq<Command>)
      requires ReactorComms.Framed(com.rx)
      modifies this, com, line
      ensures com.rx == [] && com.State() == ReactorComms.Drain(old(com.State()), old(com.rx))
      ensures com.tx == old(com.tx) + Bluetooth.LoopSent(old(radiation).Level(), elapsed)
      ensures actions == Bluetooth.LoopActions(com.robotEnabled, elapsed)
      ensures Snapshot() == Next(old(Snapshot()), obs, com.storData, com.fuelData).after
      ensures commands == Next(old(Snapshot()), obs, com.storData, com.fuelData).commands
      ensures Valid(old(Snapshot())) ==> Valid(Snapshot())
    {
      ghost var before := Snapshot();
      actions := Bluetooth.Loop(com, radiation.Level(), elapsed);
      commands := Dispatch(obs);
      commands := commands + LedCommands(radiation);
      if Valid(before) {
        ValidPreserved(before, obs, com.storData, com.fuelData);
      }
    }

    /** The switch of robotLoop(). */
    method Dispatch(obs: Inputs) returns (commands: seq<Command>)
      modifies this, line
      ensures Snapshot() == Switch(old(Snapshot()), obs, com.storData, com.fuelData).after
      ensures commands == Switch(old(Snapshot()), obs, com.storData, com.fuelData).commands
    {
      match state {
        case Begin | DecideX | TurnToX | GotoX =>
          commands := DoLegX(obs);
        case PrepDeposit1 | PrepDeposit2 | ApproachReactor | InchX =>
          commands := DoArrive(obs);
        case DecideY | TurnToY | GotoY =>
          commands := DoLegY(obs);
        case DecideArm | ArmForward | DecideGripper | MoveGripper | ArmReverse =>
          commands := DoHandle(obs);
        case BackToLine | InchY | SetTask | PickStorage | PickSupply =>
          commands := DoPlan(obs);
      }
    }

    /** The cases of LegX. */
    method DoLegX(obs: Inputs) returns (commands: seq<Command>)
      requires state in LEGX_STATES
      modifies this, line
      ensures Snapshot() == LegX(old(Snapshot()), obs).after
      ensures commands == LegX(old(Snapshot()), obs).commands
    {
      commands := [];
      match state {
        case Begin =>
          reactor := A;
          task := EmptyReactor;
          state := DecideX;
          radiation := RadNone;
          targetPos := REACTOR_A;
        case DecideX =>
          if targetPos.x == currentPos.x {
            state := DecideY;
          } else {
            if targetPos.x > currentPos.x {
              targetHeading := R;
            } else {
              targetHeading := L;
            }
            state := TurnToX;
          }
        case TurnToX =>
          commands := [GyroTurn(targetHeading)];
          if obs.turned {
            state := GotoX;
          }
        case GotoX =>
          commands := [LineFollow(DRIVE_VOLTS)];
          var hit := line.HitIntersection(obs.onBlack);
          if hit {
            if obs.headingBelowPi {
              currentPos := currentPos.(x := currentPos.x + 1);
            } else {
              currentPos := currentPos.(x := currentPos.x - 1);
            }
          }
          if currentPos.x == targetPos.x {
            if task == EmptyReactor {
              state := ApproachReactor;
            } else if task == FillReactor {
              commands := commands + [Brake];
              state := PrepDeposit1;
            } else {
              commands := commands + [ZeroEncoders];
              state := InchX;
            }
          }
        case _ =>
          assert false;
      }
    }

    /** The cases of Arrive. */
    method DoArrive(obs: Inputs) returns (commands: seq<Command>)
      requires state in ARRIVE_STATES
      modifies this, line
      ensures Snapshot() == Arrive(old(Snapshot()), obs).after
      ensures commands == Arrive(old(Snapshot()), obs).commands
    {
      commands := [];
      match state {
        case PrepDeposit1 =>
          commands := [ArmTo(ANGLE_PREP_1)];
          if obs.armSettled {
            state := PrepDeposit2;
          }
        case PrepDeposit2 =>
          commands := [ArmTo(ANGLE_PREP_2)];
          if obs.armSettled {
            state := ApproachReactor;
          }
        case ApproachReactor =>
          commands := [LineFollow(APPROACH_VOLTS)];
          if obs.reactorPressed {
            state := DecideArm;
          }
        case InchX =>
          commands := [LineFollow(DRIVE_VOLTS)];
          if obs.inchReached {
            state := DecideY;
          }
        case _ =>
          assert false;
      }
    }

    /** The cases of LegY. */
    method DoLegY(obs: Inputs) returns (commands: seq<Command>)
      requires state in LEGY_STATES
      modifies this, line
      ensures Snapshot() == LegY(old(Snapshot()), obs).after
      ensures commands == LegY(old(Snapshot()), obs).commands
    {
      commands := [];
      match state {
        case DecideY =>
          if targetPos.y == currentPos.y {
            state := DecideArm;
          } else {
            if targetPos.y > currentPos.y {
              targetHeading := U;
            } else {
              targetHeading := D;
            }
            state := TurnToY;
          }
        case TurnToY =>
          commands := [GyroTurn(targetHeading)];
          if obs.turned {
            state := GotoY;
          }
        case GotoY =>
          commands := [LineFollow(DRIVE_VOLTS)];
          if obs.tubePressed {
            if task == FillStorage {
              currentPos := currentPos.(y := 1);
            } else if task == GetSupply {
              currentPos := currentPos.(y := -1);
            }
            state := DecideArm;
          }
        case _ =>
          assert false;
      }
    }

    /** The handling cases of the switch. */
    method DoHandle(obs: Inputs) returns (commands: seq<Command>)
      requires state in HANDLE_STATES
      modifies this, line
      ensures Snapshot() == Handle(old(Snapshot()), obs).after
      ensures commands == Handle(old(Snapshot()), obs).commands
    {
      commands := [];
      match state {
        case DecideArm =>
          commands := [Brake];
          if task == EmptyReactor {
            targetArmAngle := ANGLE_PICKUP;
          } else if task == FillReactor {
            targetArmAngle := ANGLE_DROPOFF;
          } else {
            targetArmAngle := ANGLE_TUBE;
          }
          state := ArmForward;
        case ArmForward =>
          commands := [ArmTo(targetArmAngle)];
          if obs.armSettled {
            state := DecideGripper;
          }
        case DecideGripper =>
          if task == EmptyReactor || task == GetSupply {
            commands := [GripperClose];
          } else {
            commands := [GripperOpen];
          }
          state := MoveGripper;
        case MoveGripper =>
          if obs.gripperReady {
            if task == GetSupply {
              radiation := RadHigh;
            } else if task == EmptyReactor {
              radiation := RadLow;
            } else {
              radiation := RadNone;
            }
            state := ArmReverse;
          }
        case ArmReverse =>
          commands := [ArmTo(ANGLE_BACK)];
          if obs.armSettled {
            state := BackToLine;
          }
        case _ =>
          assert false;
      }
    }

    /** The planning cases of the switch. */
    method DoPlan(obs: Inputs) returns (commands: seq<Command>)
      requires state in PLAN_STATES
      modifies this, line
      ensures Snapshot() == Plan(old(Snapshot()), obs, com.storData, com.fuelData).after
      ensures commands == Plan(old(Snapshot()), obs, com.storData, com.fuelData).commands
    {
      commands := [];
      match state {
        case BackToLine =>
          commands := [BackUp];
          var hit := line.HitIntersection(obs.onBlack);
          if hit {
            currentPos := currentPos.(y := 0);
            if AtReactor(currentPos) {
              state := SetTask;
            } else {
              commands := commands + [ZeroEncoders];
              state := InchY;
            }
          }
        case InchY =>
          commands := [LineFollow(DRIVE_VOLTS)];
          if obs.inchReached {
            state := SetTask;
          }
        case SetTask =>
          commands := [Brake];
          match task {
            case EmptyReactor =>
              task := FillStorage;
              state := PickStorage;
            case FillStorage =>
              task := GetSupply;
              state := PickSupply;
            case GetSupply =>
              task := FillReactor;
              if reactor == A {
                targetPos := REACTOR_A;
              } else if reactor == B {
                targetPos := REACTOR_B;
              }
              state := DecideX;
            case FillReactor =>
              task := EmptyReactor;
              if reactor == A {
                reactor := B;
                targetPos := REACTOR_B;
              } else if reactor == B {
                reactor := A;
                targetPos := REACTOR_A;
              }
              state := DecideX;
          }
        case PickStorage =>
          if reactor == A {
            PickDescending(Storage, com.storData);
          } else if reactor == B {
            PickAscending(Storage, com.storData);
          }
        case PickSupply =>
          if reactor == A {
            PickAscending(Supply, com.fuelData);
          } else if reactor == B {
            PickDescending(Supply, com.fuelData);
          }
        case _ =>
          assert false;
      }
    }
  }

  // ---------------------------------------------------------------------
  // Properties of one pass
  // ---------------------------------------------------------------------

  /** An observation in which nothing has happened yet. */
  const QUIET: Inputs := Inputs(false, false, false, false, false, false, false, false)

  /** The Manhattan distance between two cells. */
  function Distance(p: FieldPosition, q: FieldPosition): nat
  {
    (if p.x >= q.x then p.x - q.x else q.x - p.x) + (if p.y >= q.y then p.y - q.y else q.y - p.y)
  }

  /** BEGIN starts the first task: empty reactor A, with nothing carried. */
  lemma BeginStartsAtReactorA(m: Machine, obs: Inputs, stor: ReactorComms.byte, fuel: ReactorComms.byte)
    requires m.state == Begin
    ensures var a := Next(m, obs, stor, fuel).after;
      && a.state == DecideX && a.task == EmptyReactor && a.reactor == A
      && a.radiation == RadNone && a.targetPos == REACTOR_A
      && a.currentPos == m.currentPos && a.blackBefore == m.blackBefore
  {
  }

  /** DECIDE_X turns towards the target column, and skips the x leg when the
      robot is already in it; DECIDE_Y does the same for the row. */
  lemma DecideTurnsTowardTarget(m: Machine, obs: Inputs, stor: ReactorComms.byte, fuel: ReactorComms.byte)
    requires m.state == DecideX || m.state == DecideY
    ensures var a := Next(m, obs, stor, fuel).after;
      && a.currentPos == m.currentPos && a.targetPos == m.targetPos
      && (m.state == DecideX ==>
            && (m.targetPos.x == m.currentPos.x <==> a.state == DecideY)
            && (a.state != DecideY ==> a.state == TurnToX)
            && (a.targetHeading == R <==> m.targetPos.x > m.currentPos.x || (m.targetPos.x == m.currentPos.x && m.targetHeading == R))
            && (a.targetHeading == L <==> m.targetPos.x < m.currentPos.x || (m.targetPos.x == m.currentPos.x && m.targetHeading == L)))
      && (m.state == DecideY ==>
            && (m.targetPos.y == m.currentPos.y <==> a.state == DecideArm)
            && (a.state != DecideArm ==> a.state == TurnToY)
            && (a.targetHeading == U <==> m.targetPos.y > m.currentPos.y || (m.targetPos.y == m.currentPos.y && m.targetHeading == U))
            && (a.targetHeading == D <==> m.targetPos.y < m.currentPos.y || (m.targetPos.y == m.currentPos.y && m.targetHeading == D)))
  {
  }

  /** The position changes only while driving: along x in GOTO_X, by exactly
      one column per detected crossing, in the direction the gyro reports;
      along y in GOTO_Y and BACK_TO_LINE, to the row the task names on a
      switch press or to 0 on a crossing, and never without one. */
  lemma OdometryOnlyWhileDriving(m: Machine, obs: Inputs, stor: ReactorComms.byte, fuel: ReactorComms.byte)
    ensures var a := Next(m, obs, stor, fuel).after;
      && (a.currentPos != m.currentPos ==> m.state == GotoX || m.state == GotoY || m.state == BackToLine)
      && (m.state == GotoX ==>
            && a.currentPos.y == m.currentPos.y
            && (a.currentPos.x != m.currentPos.x <==> obs.onBlack && !m.blackBefore)
            && (a.currentPos.x != m.currentPos.x ==>
                  a.currentPos.x == m.currentPos.x + (if obs.headingBelowPi then 1 else -1)))
      && (m.state == GotoY ==>
            && (a.state == DecideArm <==> obs.tubePressed)
            && a.currentPos == (if !obs.tubePressed then m.currentPos
                                else m.currentPos.(y := match m.task
                                                        case FillStorage => 1
                                                        case GetSupply => -1
                                                        case _ => m.currentPos.y)))
      && (m.state == BackToLine ==>
            && a.currentPos.x == m.currentPos.x
            && (a.currentPos != m.currentPos ==> a.currentPos.y == 0)
            && (!(obs.onBlack && !m.blackBefore) ==> a == m.(blackBefore := obs.onBlack)))
  {
  }

  /** The line detector's memory is touched only by the two states that call
      hitIntersection(), and then it holds this pass's reading. */
  lemma LineMemoryOnlyWhileCounting(m: Machine, obs: Inputs, stor: ReactorComms.byte, fuel: ReactorComms.byte)
    ensures var a := Next(m, obs, stor, fuel).after;
      && (m.state == GotoX || m.state == BackToLine ==> a.blackBefore == obs.onBlack)
      && (m.state != GotoX && m.state != BackToLine ==> a.blackBefore == m.blackBefore)
  {
  }

  /** Every state that waits on a sensor or a controller leaves the machine as
      it is until that condition holds, and then moves to its one successor. */
  lemma WaitStatesHold(m: Machine, obs: Inputs, stor: ReactorComms.byte, fuel: ReactorComms.byte)
    ensures var a := Next(m, obs, stor, fuel).after;
      && (m.state == TurnToX ==> a == if obs.turned then m.(state := GotoX) else m)
      && (m.state == TurnToY ==> a == if obs.turned then m.(state := GotoY) else m)
      && (m.state == PrepDeposit1 ==> a == if obs.armSettled then m.(state := PrepDeposit2) else m)
      && (m.state == PrepDeposit2 ==> a == if obs.armSettled then m.(state := ApproachReactor) else m)
      && (m.state == ArmForward ==> a == if obs.armSettled then m.(state := DecideGripper) else m)
      && (m.state == ArmReverse ==> a == if obs.armSettled then m.(state := BackToLine) else m)
      && (m.state == ApproachReactor ==> a == if obs.reactorPressed then m.(state := DecideArm) else m)
      && (m.state == InchX ==> a == if obs.inchReached then m.(state := DecideY) else m)
      && (m.state == InchY ==> a == if obs.inchReached then m.(state := SetTask) else m)
      && (m.state == GotoY && !obs.tubePressed ==> a == m)
      && (m.state == GotoY && obs.tubePressed ==> a.state == DecideArm)
      && (m.state == BackToLine && !obs.onBlack ==> a == m.(blackBefore := false))
      && (m.state == MoveGripper && !obs.gripperReady ==> a == m)
  {
  }

  /** The task that follows each task in the refuelling cycle. */
  function NextTask(t: Task): Task
  {
    match t
    case EmptyReactor => FillStorage
    case FillStorage => GetSupply
    case GetSupply => FillReactor
    case FillReactor => EmptyReactor
  }

  /** The task advances only in SET_TASK, one step round the cycle, and the
      reactor changes only when a refuelled reactor's cycle completes; after
      emptying a reactor the robot picks a storage tube, after filling one it
      picks a supply tube. */
  lemma TaskCycle(m: Machine, obs: Inputs, stor: ReactorComms.byte, fuel: ReactorComms.byte)
    requires m.state != Begin
    ensures var a := Next(m, obs, stor, fuel).after;
      && (a.task != m.task <==> m.state == SetTask)
      && (m.state == SetTask ==> a.task == NextTask(m.task))
      && (a.reactor != m.reactor ==> m.state == SetTask && m.task == FillReactor)
      && (m.state == SetTask && m.task == FillReactor && m.reactor != ReactorUnset ==>
            && a.reactor != m.reactor && a.reactor != ReactorUnset
            && a.targetPos == ReactorCell(a.reactor) && a.state == DecideX)
      && (m.state == SetTask && m.task == GetSupply && m.reactor != ReactorUnset ==>
            a.targetPos == ReactorCell(m.reactor) && a.state == DecideX)
      && (m.state == SetTask && m.task == EmptyReactor ==>
            a.state == PickStorage && a.targetPos == m.targetPos && a.reactor == m.reactor)
      && (m.state == SetTask && m.task == FillStorage ==>
            a.state == PickSupply && a.targetPos == m.targetPos && a.reactor == m.reactor)
  {
  }

  /** Four tasks bring the cycle back to where it started. */
  lemma {:induction false} TaskCyclePeriod(t: Task)
    ensures NextTask(NextTask(NextTask(NextTask(t)))) == t
    ensures NextTask(t) != t
  {
    match t
    case EmptyReactor =>
    case FillStorage =>
    case GetSupply =>
    case FillReactor =>
  }

  /** The arm goes to the pickup angle to take a spent rod from the reactor,
      to the drop-off angle to refuel it, and to the tube angle otherwise; the
      gripper closes exactly when a rod is to be taken; once it has moved, the
      radiation level is high while a new rod is carried, low while a spent
      rod is carried, and none after a rod has been put down. */
  lemma HandlingByTask(m: Machine, obs: Inputs, stor: ReactorComms.byte, fuel: ReactorComms.byte)
    ensures var s := Next(m, obs, stor, fuel);
      && (m.state == DecideArm ==>
            && s.after.state == ArmForward && s.commands[0] == Brake
            && s.after.targetArmAngle == (match m.task
                                          case EmptyReactor => ANGLE_PICKUP
                                          case FillReactor => ANGLE_DROPOFF
                                          case _ => ANGLE_TUBE))
      && (m.state == DecideGripper ==>
            && s.after.state == MoveGripper
            && (s.commands[0] == GripperClose <==> m.task == EmptyReactor || m.task == GetSupply)
            && (s.commands[0] == GripperOpen <==> m.task == FillStorage || m.task == FillReactor))
      && (m.state == MoveGripper && obs.gripperReady ==>
            && s.after.state == ArmReverse
            && (s.after.radiation == RadHigh <==> m.task == GetSupply)
            && (s.after.radiation == RadLow <==> m.task == EmptyReactor)
            && (s.after.radiation == RadNone <==> m.task == FillStorage || m.task == FillReactor))
  {
  }

  /** Every pass ends by showing the radiation level on the LED, once BEGIN has
      set it. */
  lemma LedShowsRadiation(m: Machine, obs: Inputs, stor: ReactorComms.byte, fuel: ReactorComms.byte)
    requires m.state != Begin ==> m.radiation != RadUnset
    ensures var s := Next(m, obs, stor, fuel);
      && s.after.radiation != RadUnset
      && s.commands != [] && s.commands[|s.commands| - 1] == Led(s.after.radiation)
  {
  }

  /** Backing onto the line ends the rod handling at a reactor, and otherwise
      first inches the robot onto the crossing. */
  lemma BackToLineAtReactor(m: Machine, obs: Inputs, stor: ReactorComms.byte, fuel: ReactorComms.byte)
    requires m.state == BackToLine && obs.onBlack && !m.blackBefore
    ensures var a := Next(m, obs, stor, fuel).after;
      && a.currentPos == FieldPosition(m.currentPos.x, 0)
      && (a.state == SetTask <==> m.currentPos.x == 1 || m.currentPos.x == 6)
      && (a.state != SetTask ==> a.state == InchY)
  {
  }

  /** The x leg ends exactly when the new column is the target's, and the task
      then picks the next state: the reactor approach when emptying, the
      deposit arm preparation after braking when refuelling, and otherwise an
      inch forward with the encoders zeroed. */
  lemma GotoXExit(m: Machine, obs: Inputs, stor: ReactorComms.byte, fuel: ReactorComms.byte)
    requires m.state == GotoX
    ensures var s := Next(m, obs, stor, fuel); var a := s.after;
      && (a.state == GotoX <==> a.currentPos.x != m.targetPos.x)
      && (a.state != GotoX ==>
            a.state == match m.task
                       case EmptyReactor => ApproachReactor
                       case FillReactor => PrepDeposit1
                       case _ => InchX)
      && (Brake in s.commands <==> a.state == PrepDeposit1)
      && (ZeroEncoders in s.commands <==> a.state == InchX)
  {
  }

  /** Planning stops the robot before anything else, and backing onto the
      line zeroes the encoders exactly when it goes on to inch forward. */
  lemma PlanMotorCommands(m: Machine, obs: Inputs, stor: ReactorComms.byte, fuel: ReactorComms.byte)
    ensures var s := Next(m, obs, stor, fuel); var a := s.after;
      && (m.state == SetTask ==> |s.commands| > 0 && s.commands[0] == Brake)
      && (m.state == BackToLine ==> (ZeroEncoders in s.commands <==> a.state == InchY))
  {
  }

  // ---------------------------------------------------------------------
  // Choosing a tube
  // ---------------------------------------------------------------------

  /** The bitmap a pick state reads. */
  function Bitmap(kind: Tube, stor: ReactorComms.byte, fuel: ReactorComms.byte): ReactorComms.byte
  {
    if kind == Storage then stor else fuel
  }

  function PickState(kind: Tube): State
  {
    if kind == Storage then PickStorage else PickSupply
  }

  /** Storage tubes run right to left (tube 1 at x = 5) and supply tubes left
      to right (tube 1 at x = 2), so scanning from the near end finds the free
      tube nearest the reactor. */
  lemma {:induction false} PickIsNearest(m: Machine, obs: Inputs, stor: ReactorComms.byte, fuel: ReactorComms.byte, kind: Tube, j: int)
    requires m.state == PickState(kind) && m.reactor != ReactorUnset
    requires TubeFree(kind, Bitmap(kind, stor, fuel), j)
    ensures var a := Next(m, obs, stor, fuel).after;
      && a.state == DecideX
      && (exists id :: 1 <= id <= 4 && TubeFree(kind, Bitmap(kind, stor, fuel), id) && a.targetPos == TubeCell(kind, id))
      && Distance(a.targetPos, ReactorCell(m.reactor)) <= Distance(TubeCell(kind, j), ReactorCell(m.reactor))
  {
    var bits := Bitmap(kind, stor, fuel);
    var id := PickedTube(kind, m.reactor, bits);
    assert 1 <= j <= 4;
    assert id != 0;
    assert TubeFree(kind, bits, id);
    assert Next(m, obs, stor, fuel).after == m.(targetPos := TubeCell(kind, id), state := DecideX);
  }

  /** With no free tube of the wanted kind the pick state waits, unchanged, for
      the field to report one. */
  lemma PickWaitsWhenNoneFree(m: Machine, obs: Inputs, stor: ReactorComms.byte, fuel: ReactorComms.byte, kind: Tube)
    requires m.state == PickState(kind)
    requires forall j :: 1 <= j <= 4 ==> !TubeFree(kind, Bitmap(kind, stor, fuel), j)
    ensures Next(m, obs, stor, fuel).after == m
  {
    var bits := Bitmap(kind, stor, fuel);
    assert PickedTube(kind, m.reactor, bits) == 0;
  }

  // ---------------------------------------------------------------------
  // The invariant
  // ---------------------------------------------------------------------

  /** The target is the cell the current task names: the current reactor for
      emptying and refuelling, a storage tube for filling storage, a supply
      tube for fetching a new rod. */
  predicate AimsForTask(m: Machine)
    requires m.reactor != ReactorUnset
  {
    match m.task
    case EmptyReactor => m.targetPos == ReactorCell(m.reactor)
    case FillReactor => m.targetPos == ReactorCell(m.reactor)
    case FillStorage => m.targetPos in STORAGE
    case GetSupply => m.targetPos in SUPPLY
  }

  /** What holds of the globals on every pass: the target is always a named
      cell; the robot is on one of the three rows; BEGIN has run before any
      other state; each pick state belongs to its task; and outside BEGIN and
      the pick states the robot heads for the cell its task names. */
  predicate Valid(m: Machine)
  {
    && IsNamedCell(m.targetPos)
    && -1 <= m.currentPos.y <= 1
    && (m.state != Begin ==> m.reactor != ReactorUnset && m.radiation != RadUnset)
    && (m.state == PickStorage ==> m.task == FillStorage)
    && (m.state == PickSupply ==> m.task == GetSupply)
    && (m.state != Begin && m.state != PickStorage && m.state != PickSupply ==> AimsForTask(m))
  }

  lemma InitialValid()
    ensures Valid(INITIAL)
  {
    assert REACTOR_A in NAMED_CELLS;
  }

  /** A pass that keeps the target, the task and the reactor, sets the
      radiation and does not enter BEGIN or a pick state keeps the invariant. */
  lemma SteadyPlanValid(m: Machine, a: Machine)
    requires Valid(m) && m.state != Begin && m.state != PickStorage && m.state != PickSupply
    requires a.targetPos == m.targetPos && a.task == m.task && a.reactor == m.reactor
    requires a.radiation != RadUnset && -1 <= a.currentPos.y <= 1
    requires a.state != Begin && a.state != PickStorage && a.state != PickSupply
    ensures Valid(a)
  {
  }

  /** One pass keeps the invariant. */
  lemma ValidPreserved(m: Machine, obs: Inputs, stor: ReactorComms.byte, fuel: ReactorComms.byte)
    requires Valid(m)
    ensures Valid(Next(m, obs, stor, fuel).after)
  {
    var s := Switch(m, obs, stor, fuel);
    assert Next(m, obs, stor, fuel).after == s.after;
    match m.state {
      case Begin =>
        assert s.after == m.(reactor := A, task := EmptyReactor, state := DecideX, radiation := RadNone, targetPos := REACTOR_A);
        assert REACTOR_A in NAMED_CELLS;
      case DecideX | TurnToX | GotoX =>
        LegXValid(m, obs, stor, fuel);
      case PrepDeposit1 | PrepDeposit2 | ApproachReactor | InchX =>
        ArriveValid(m, obs, stor, fuel);
      case DecideY | TurnToY | GotoY =>
        LegYValid(m, obs, stor, fuel);
      case DecideArm | ArmForward | DecideGripper | MoveGripper | ArmReverse =>
        HandleValid(m, obs, stor, fuel);
      case BackToLine | InchY =>
        ReturnValid(m, obs, stor, fuel);
      case SetTask =>
        SetTaskValid(m, obs, stor, fuel);
      case PickStorage | PickSupply =>
        PickValid(m, obs, stor, fuel);
    }
  }

  lemma LegXValid(m: Machine, obs: Inputs, stor: ReactorComms.byte, fuel: ReactorComms.byte)
    requires Valid(m) && m.state in {DecideX, TurnToX, GotoX}
    ensures Valid(Switch(m, obs, stor, fuel).after)
  {
    assert Switch(m, obs, stor, fuel) == LegX(m, obs);
    SteadyPlanValid(m, LegX(m, obs).after);
  }

  lemma ArriveValid(m: Machine, obs: Inputs, stor: ReactorComms.byte, fuel: ReactorComms.byte)
    requires Valid(m) && m.state in ARRIVE_STATES
    ensures Valid(Switch(m, obs, stor, fuel).after)
  {
    assert Switch(m, obs, stor, fuel) == Arrive(m, obs);
    SteadyPlanValid(m, Arrive(m, obs).after);
  }

  lemma LegYValid(m: Machine, obs: Inputs, stor: ReactorComms.byte, fuel: ReactorComms.byte)
    requires Valid(m) && m.state in LEGY_STATES
    ensures Valid(Switch(m, obs, stor, fuel).after)
  {
    assert Switch(m, obs, stor, fuel) == LegY(m, obs);
    SteadyPlanValid(m, LegY(m, obs).after);
  }

  lemma HandleValid(m: Machine, obs: Inputs, stor: ReactorComms.byte, fuel: ReactorComms.byte)
    requires Valid(m) && m.state in HANDLE_STATES
    ensures Valid(Switch(m, obs, stor, fuel).after)
  {
    assert Switch(m, obs, stor, fuel) == Handle(m, obs);
    SteadyPlanValid(m, Handle(m, obs).after);
  }

  lemma ReturnValid(m: Machine, obs: Inputs, stor: ReactorComms.byte, fuel: ReactorComms.byte)
    requires Valid(m) && m.state in {BackToLine, InchY}
    ensures Valid(Switch(m, obs, stor, fuel).after)
  {
    assert Switch(m, obs, stor, fuel) == Plan(m, obs, stor, fuel);
    SteadyPlanValid(m, Plan(m, obs, stor, fuel).after);
  }

  /** SET_TASK keeps the invariant: it enters a pick state with the matching
      task, or aims at the current (or the other) reactor. */
  lemma SetTaskValid(m: Machine, obs: Inputs, stor: ReactorComms.byte, fuel: ReactorComms.byte)
    requires Valid(m) && m.state == SetTask
    ensures Valid(Switch(m, obs, stor, fuel).after)
  {
    assert Switch(m, obs, stor, fuel) == Plan(m, obs, stor, fuel);
    var a := Plan(m, obs, stor, fuel).after;
    assert REACTOR_A in NAMED_CELLS && REACTOR_B in NAMED_CELLS;
    match m.task {
      case EmptyReactor =>
        assert a == m.(task := FillStorage, state := PickStorage);
      case FillStorage =>
        assert a == m.(task := GetSupply, state := PickSupply);
      case GetSupply =>
        assert a.task == FillReactor && a.state == DecideX && a.targetPos == ReactorCell(a.reactor);
      case FillReactor =>
        assert a.task == EmptyReactor && a.state == DecideX && a.targetPos == ReactorCell(a.reactor);
    }
  }

  /** A pick state keeps the invariant: it aims at a tube of its own kind. */
  lemma PickValid(m: Machine, obs: Inputs, stor: ReactorComms.byte, fuel: ReactorComms.byte)
    requires Valid(m) && (m.state == PickStorage || m.state == PickSupply)
    ensures Valid(Switch(m, obs, stor, fuel).after)
  {
    var kind := if m.state == PickStorage then Storage else Supply;
    var a := Switch(m, obs, stor, fuel).after;
    assert a == Pick(m, kind, Bitmap(kind, stor, fuel));
    var id := PickedTube(kind, m.reactor, Bitmap(kind, stor, fuel));
    if id != 0 {
      assert a.targetPos == TubeCell(kind, id);
      assert a.targetPos in NAMED_CELLS;
    }
  }

  /** A run of passes from a valid state, however the sensors behave and
      whatever bitmaps the field sends on each pass, keeps the invariant. */
  lemma {:induction false} RunValid(m: Machine, passes: seq<Pass>)
    requires Valid(m)
    ensures Valid(Run(m, passes))
    decreases |passes|
  {
    if passes != [] {
      var p := passes[0];
      ValidPreserved(m, p.obs, p.stor, p.fuel);
      RunValid(Next(m, p.obs, p.stor, p.fuel).after, passes[1..]);
    }
  }

  /** On the y leg of a storage or supply task, the tube switch puts the
      odometry on the target row. */
  lemma GotoYLandsOnTargetRow(m: Machine, obs: Inputs, stor: ReactorComms.byte, fuel: ReactorComms.byte)
    requires Valid(m) && m.state == GotoY && obs.tubePressed
    requires m.task == FillStorage || m.task == GetSupply
    ensures Next(m, obs, stor, fuel).after.currentPos.y == m.targetPos.y
  {
  }

  // ---------------------------------------------------------------------
  // Runs
  // ---------------------------------------------------------------------

  /** Passes while crossing `n` grid lines: black, then white and black again
      for each further line, with the gyro facing right or left. */
  function Crossings(n: nat, right: bool, stor: ReactorComms.byte, fuel: ReactorComms.byte): seq<Pass>
    decreases n
  {
    var black := Pass(QUIET.(onBlack := true, headingBelowPi := right), stor, fuel);
    var white := Pass(QUIET.(headingBelowPi := right), stor, fuel);
    if n <= 1 then [black] else [black, white] + Crossings(n - 1, right, stor, fuel)
  }

  /** The x leg's crossings counted from an off-line reading. */
  lemma {:induction false} CrossingsFromWhite(m: Machine, n: nat, right: bool, stor: ReactorComms.byte, fuel: ReactorComms.byte)
    requires m.state == GotoX && !m.blackBefore && n >= 1
    requires m.targetPos.x == (if right then m.currentPos.x + n else m.currentPos.x - n)
    ensures var a := Run(m, Crossings(n, right, stor, fuel));
      && a.currentPos == m.currentPos.(x := m.targetPos.x)
      && a.state == (match m.task
                     case EmptyReactor => ApproachReactor
                     case FillReactor => PrepDeposit1
                     case _ => InchX)
    decreases n
  {
    var black := Pass(QUIET.(onBlack := true, headingBelowPi := right), stor, fuel);
    var white := Pass(QUIET.(headingBelowPi := right), stor, fuel);
    if n > 1 {
      var rest := Crossings(n - 1, right, stor, fuel);
      assert Crossings(n, right, stor, fuel) == [black, white] + rest;
      assert ([black, white] + rest)[1..] == [white] + rest;
      assert ([white] + rest)[1..] == rest;
      var m1 := Next(m, black.obs, stor, fuel).after;
      var m2 := Next(m1, white.obs, stor, fuel).after;
      assert m2 == m.(currentPos := m.currentPos.(x := m.currentPos.x + (if right then 1 else -1)));
      CrossingsFromWhite(m2, n - 1, right, stor, fuel);
    } else {
      assert Crossings(n, right, stor, fuel) == [black];
    }
  }

  /** In GOTO_X, whatever the line memory holds, one off-line reading and then
      `n` crossings in the direction of the target bring the odometry exactly
      onto the target column and end the x leg. */
  lemma CrossingsReachTarget(m: Machine, n: nat, right: bool, stor: ReactorComms.byte, fuel: ReactorComms.byte)
    requires m.state == GotoX && n >= 1
    requires m.targetPos.x == (if right then m.currentPos.x + n else m.currentPos.x - n)
    ensures var a := Run(m, [Pass(QUIET.(headingBelowPi := right), stor, fuel)] + Crossings(n, right, stor, fuel));
      && a.currentPos == m.currentPos.(x := m.targetPos.x)
      && a.state == (match m.task
                     case EmptyReactor => ApproachReactor
                     case FillReactor => PrepDeposit1
                     case _ => InchX)
  {
    var white := Pass(QUIET.(headingBelowPi := right), stor, fuel);
    var rest := Crossings(n, right, stor, fuel);
    assert ([white] + rest)[1..] == rest;
    var m1 := Next(m, white.obs, stor, fuel).after;
    assert m1 == m.(blackBefore := false);
    CrossingsFromWhite(m1, n, right, stor, fuel);
  }

  /** The first leg from the starting cell: BEGIN, turn left, one crossing,
      the reactor switch, and the arm starts towards the pickup angle. */
  lemma FirstLegScenario(stor: ReactorComms.byte, fuel: ReactorComms.byte)
    ensures Run(INITIAL,
                [Pass(QUIET, stor, fuel), Pass(QUIET, stor, fuel), Pass(QUIET.(turned := true), stor, fuel),
                 Pass(QUIET.(onBlack := true), stor, fuel), Pass(QUIET.(reactorPressed := true), stor, fuel),
                 Pass(QUIET, stor, fuel)])
         == Machine(ArmForward, EmptyReactor, A, RadNone, REACTOR_A, REACTOR_A, L, ANGLE_PICKUP, true)
  {
    var ins := [Pass(QUIET, stor, fuel), Pass(QUIET, stor, fuel), Pass(QUIET.(turned := true), stor, fuel),
                Pass(QUIET.(onBlack := true), stor, fuel), Pass(QUIET.(reactorPressed := true), stor, fuel),
                Pass(QUIET, stor, fuel)];
    var m1 := Machine(DecideX, EmptyReactor, A, RadNone, FieldPosition(2, 0), REACTOR_A, U, 0, false);
    assert Next(INITIAL, ins[0].obs, stor, fuel).after == m1;
    var m2 := m1.(state := TurnToX, targetHeading := L);
    assert Next(m1, ins[1].obs, stor, fuel).after == m2;
    var m3 := m2.(state := GotoX);
    assert Next(m2, ins[2].obs, stor, fuel).after == m3;
    var m4 := m3.(state := ApproachReactor, currentPos := REACTOR_A, blackBefore := true);
    assert Next(m3, ins[3].obs, stor, fuel).after == m4;
    var m5 := m4.(state := DecideArm);
    assert Next(m4, ins[4].obs, stor, fuel).after == m5;
    var m6 := m5.(state := ArmForward, targetArmAngle := ANGLE_PICKUP);
    assert Next(m5, ins[5].obs, stor, fuel).after == m6;
    assert Run(m6, ins[6..]) == m6;
    assert Run(m5, ins[5..]) == m6;
    assert Run(m4, ins[4..]) == m6;
    assert Run(m3, ins[3..]) == m6;
    assert Run(m2, ins[2..]) == m6;
    assert Run(m1, ins[1..]) == m6;
  }

  /** With storage bitmap 0x0D (tubes 1, 3 and 4 full), the robot working on
      reactor A aims at storage tube 2, at (4, 1). */
  lemma StoragePickScenario(m: Machine, obs: Inputs, fuel: ReactorComms.byte)
    requires m.state == PickStorage && m.reactor == A
    ensures Next(m, obs, 0x0D, fuel).after == m.(targetPos := FieldPosition(4, 1), state := DecideX)
  {
    assert !ReactorComms.StorageAvailable(0x0D, 4);
    assert !ReactorComms.StorageAvailable(0x0D, 3);
    assert ReactorComms.StorageAvailable(0x0D, 2);
  }
}
